=== FILE: README.md ===
# SmartClass front end: a Dafny model of its client-side logic

SmartClass is a React web app for teachers. Teachers keep groups of students, grade their tasks, take attendance by QR code or by face recognition, publish grade links and message students. This project models in Dafny the decisions the browser code makes between the screens and the backend. It covers:

- how requests are built;
- how replies are read;
- how lists are updated locally;
- how statistics and labels are derived;
- how the face-scanning loop starts and stops its detection interval.

Every network reply, camera result, parsed URL, parsed JSON document and clock reading is an input of the model, never an effect.

The modules follow the source files:

| module | file | what it models |
|---|---|---|
| `Common` | — | JavaScript values, truthiness, `\|\|`, `===`, `String.prototype.trim`, `Math.round`, `Result`/`Option` |
| `Attendance` | shared by `Scanner.jsx` and `FaceVerificationModal.jsx` | the `POST /attendance` body and reply |
| `FaceCapture` | `config.js`, both face modals | the face-quality gate (score ≥ 0.9, box ≥ 150 px), tick feedback, and a timer table standing for `setInterval`/`clearInterval` |
| `FaceVerification` | `FaceVerificationModal.jsx` | the verification modal as a state machine over its events |
| `FaceRegistration` | `FaceRecognitionModal.jsx` | the registration modal as a state machine (see Findings) |
| `FaceLegacy` | `FaceRecognition.jsx` | the older face page without a quality gate |
| `Grades` | both performance charts | which grade rows count and their sum |
| `GroupPerformance` | `PerformanceChart.jsx` | per-student analysis, the ranking sort, group statistics and the level distribution |
| `StudentPerformance` | `StudentPerformanceChart.jsx` | one student's grades, statistics, chart data and labels |
| `Scanner` | `Scanner.jsx` | reading a scanned QR code as an attendance link or as JSON, then the lookup and attendance replies |
| `Grupo` | `Grupo.jsx` | search-result de-duplication, task-list updates, form guards |
| `Grupos` | `Grupos.jsx` | creating a group and the list-wide task updates |
| `StudentInfo` | `StudentInfo.jsx` | task formatting, the points/percentage switch, grade validation, attendance and permission forms |
| `Home` | `Home.jsx` | the greeting, the insight cards and the dashboard statistics |
| `GroupLinks` | `GroupLinks.jsx` | generating, deleting and opening public grade links |
| `SendMessage` | `SendMessageModal.jsx` | the send and close handlers, the button guard and the status line |

Numbers are Dafny `real`s. Real numbers stand in for JavaScript doubles, so there is no rounding error, `NaN` or infinity.

## Model

| member | source | states |
|---|---|---|
| Common.Or | src/pages/Grupo.jsx:447 | `a \|\| b` yields one of its operands and is truthy exactly when either operand is |
| Common.TrimStart | src/components/SendMessageModal.jsx:11 | the leading part removed by `trim` is all white space, and what remains is a suffix that starts with a non-space |
| Common.TrimEnd | src/components/SendMessageModal.jsx:11 | the trailing part removed by `trim` is all white space, and what remains is a prefix that ends with a non-space |
| Common.TrimEmptyIffBlank | src/components/SendMessageModal.jsx:11 | `!s.trim()` holds exactly when every character of `s` is white space |
| Common.TrimIsInfix | src/components/SendMessageModal.jsx:30 | the trimmed message is a contiguous part of what was typed |
| Common.JsRound | src/pages/Home.jsx:30 | `Math.round` lands within half a unit of its argument |
| Common.RoundHundredths | src/components/PerformanceChart.jsx:119 | `Math.round(x * 100) / 100` is a whole number of hundredths within 0.005 of `x` (above by at most 0.005, below by less) |
| Common.RoundHundredthsUnique | src/components/PerformanceChart.jsx:119 | those two facts determine the result: any whole number of hundredths within the allowance is the rounded value |
| Common.JsRoundOfInt | src/pages/Home.jsx:30 | `Math.round` leaves whole numbers unchanged |
| Attendance.AttendanceBody | src/pages/Scanner.jsx:216-223 | the attendance body carries the profile's name, surnames, grade, group, speciality and id under the server's English keys |
| Attendance.AttendanceBodyRoundTrip | src/pages/Scanner.jsx:216-223 | the renaming loses nothing: the profile can be read back from the body |
| FaceCapture.FirstDetection | src/components/FaceVerificationModal.jsx:88-91 | the face used is the first detection, and there is one exactly when the library found any |
| FaceCapture.Evaluate | src/components/FaceVerificationModal.jsx:92-122 | no face; accepted exactly when score ≥ 0.9 and both box sides ≥ 150; rejected for low score first, otherwise for a small face |
| FaceCapture.LowScoreDominates | src/components/FaceVerificationModal.jsx:109-116 | a low score is reported as such whatever the box size |
| FaceCapture.TickFeedback | src/components/FaceVerificationModal.jsx:96-122 | the quality panel shows the detection's score and box, "good" exactly for an accepted face, and the rejection reason exactly for a rejected one |
| FaceCapture.Schedule | src/components/FaceVerificationModal.jsx:79 | `setInterval` returns a handle not in use and adds exactly that timer |
| FaceCapture.Cancel | src/components/FaceVerificationModal.jsx:142-155 | `clearInterval` removes exactly that handle and leaves the other timers and the next handle as they were |
| FaceCapture.CancelHeld | src/components/FaceVerificationModal.jsx:197-201 | clearing a possibly-null interval value removes that handle when there is one, and nothing otherwise |
| FaceVerification.Initial | src/components/FaceVerificationModal.jsx:13-22 | the modal starts idle, with no timer running and nothing submitted |
| FaceVerification.Open | src/components/FaceVerificationModal.jsx:24-69 | opening requests the camera and the models, records the interval value the effect's clean-up will see, and touches no timer |
| FaceVerification.Start | src/components/FaceVerificationModal.jsx:71-79 | start does nothing while scanning or before the models load; otherwise it clears the results and runs exactly one new interval |
| FaceVerification.Submit | src/components/FaceVerificationModal.jsx:191-214 | a submission ends the scan, clears the captured interval, and posts the group id, the descriptor and `k = 20` |
| FaceVerification.Tick | src/components/FaceVerificationModal.jsx:79-137 | a live interval with a ready video submits exactly when the first face passes the quality gate, and otherwise only updates the feedback |
| FaceVerification.Stop | src/components/FaceVerificationModal.jsx:142-155 | stop acts only while scanning with a held interval; then it clears that interval and ends the scan; every other field (results, status, feedback, submissions) and every other timer is unchanged |
| FaceVerification.OnSearchReply | src/components/FaceVerificationModal.jsx:215-237 | attendance is requested exactly for a parsed reply with a truthy `id`, using that student's profile; any other reply is the "not recognised" or error status |
| FaceVerification.OnAttendanceReply | src/components/FaceVerificationModal.jsx:157-189 | registered exactly for `response === true`, error exactly for a failed request, "not recognised" for any other parsed reply |
| FaceVerification.Continue | src/components/FaceVerificationModal.jsx:240-253 | continuing resets every result field and the feedback, and leaves the timers and the camera alone |
| FaceVerification.Close | src/components/FaceVerificationModal.jsx:255-271 | closing stops the camera tracks, closes the modal and resets the results |
| FaceVerification.InvPreserved | src/components/FaceVerificationModal.jsx:71-155 | every event keeps the invariant: a detection interval runs only during a scan, and only the one the state holds |
| FaceVerification.NoSubmissionOutsideScan | src/components/FaceVerificationModal.jsx:197-201 | outside a scan no tick submits, so each scan submits at most one search |
| FaceVerification.CloseReleasesEverything | src/components/FaceVerificationModal.jsx:255-271 | after closing, no camera track and no detection interval is left running |
| FaceVerification.RejectedTickKeepsScanning | src/components/FaceVerificationModal.jsx:109-122 | a rejected or empty tick submits nothing and keeps scanning with the same interval |
| FaceRegistration.Initial | src/components/FaceRecognitionModal.jsx:21-31 | the modal starts idle, with no timer running and nothing submitted |
| FaceRegistration.Open | src/components/FaceRecognitionModal.jsx:21-31 | opening requests the camera and the models and touches no timer |
| FaceRegistration.Start | src/components/FaceRecognitionModal.jsx:68-77 | start does nothing while scanning or before the models load; otherwise it resets the status and runs exactly one new interval |
| FaceRegistration.Tick | src/components/FaceRecognitionModal.jsx:77-137 | a live interval with a ready video posts the descriptor exactly when the first face passes the quality gate; a tick without a face shows the "no face" feedback |
| FaceRegistration.Stop | src/components/FaceRecognitionModal.jsx:140-153 | stop acts only while scanning with a held interval, clearing it and ending the scan; every other field and every other timer is unchanged |
| FaceRegistration.OnReplyAsWritten | src/components/FaceRecognitionModal.jsx:172-190 | the reply handler as written: success for any parsed reply, error otherwise; scanning ends, but the interval cleared is the one captured when the scan started |
| FaceRegistration.OnReply | src/components/FaceRecognitionModal.jsx:172-190 | the corrected handler clears the interval the state holds when the reply arrives, so no interval is held afterwards |
| FaceRegistration.Continue | src/components/FaceRecognitionModal.jsx:193-204 | continuing resets the status and the feedback and leaves the timers alone |
| FaceRegistration.ContinueReenablesStart | src/components/FaceRecognitionModal.jsx:287 | after any reply, continuing brings the start button back (idle, no status) |
| FaceRegistration.Close | src/components/FaceRecognitionModal.jsx:206-220 | closing stops the tracks, closes the modal and resets status and feedback |
| FaceRegistration.InvPreserved | src/components/FaceRecognitionModal.jsx:68-220 | with the corrected reply handler, every event keeps the invariant that intervals run only during a scan |
| FaceRegistration.CloseReleasesEverything | src/components/FaceRecognitionModal.jsx:206-220 | with the corrected handler, closing leaves no interval and no camera track running |
| FaceRegistration.StaleReplyLeaksInterval | src/components/FaceRecognitionModal.jsx:172-190 | as written, register, stop, start again and then the reply leaves an interval running while the modal shows "not scanning"; that interval survives stop and close |
| FaceLegacy.Initial | src/pages/FaceRecognition.jsx:54-55 | the page starts idle with no timer |
| FaceLegacy.RequestFor | src/pages/FaceRecognition.jsx:137-184 | registration posts under the fixed user id `'4655'` (a string); verification searches user `4655` (a number) with `k = 1` |
| FaceLegacy.Start | src/pages/FaceRecognition.jsx:54-118 | start is guarded by `!isScanning` only, and then runs exactly one interval in the chosen mode |
| FaceLegacy.Tick | src/pages/FaceRecognition.jsx:64-69 | a live, ready interval submits whenever any face is detected, and never changes the scanning flag |
| FaceLegacy.NoQualityGate | src/pages/FaceRecognition.jsx:97-101 | a face that the modals' quality gate rejects is still submitted here |
| FaceLegacy.Stop | src/pages/FaceRecognition.jsx:120-133 | stop acts only while scanning with a held interval, clearing it and ending the scan; every other field and every other timer is unchanged |
| FaceLegacy.InvPreserved | src/pages/FaceRecognition.jsx:54-133 | every event keeps the invariant that intervals run only during a scan |
| FaceLegacy.StuckScanningAfterSubmission | src/pages/FaceRecognition.jsx:137-184 | after a submission the page still reports scanning, so both start buttons do nothing until stop |
| Grades.ValidValues | src/components/PerformanceChart.jsx:93-101 | the numbers kept are those of rows with a final grade; the list is empty exactly when no row has one |
| Grades.ValidValuesAppend | src/components/PerformanceChart.jsx:93-98 | filtering distributes over concatenation |
| Grades.ValidValuesFromRows | src/components/PerformanceChart.jsx:101 | every number kept comes from some row's final grade |
| Grades.SumAppend | src/components/PerformanceChart.jsx:102-103 | the `reduce` sum of a concatenation is the sum of the parts |
| Grades.SumBounds | src/components/PerformanceChart.jsx:148-149 | a sum of `n` values within `[lo, hi]` lies within `[n·lo, n·hi]` |
| GroupPerformance.LevelOf | src/components/PerformanceChart.jsx:133-139 | excellent from 100, good in [80, 100), average in [60, 80), critical below 60 |
| GroupPerformance.TotalScore | src/components/PerformanceChart.jsx:101-104 | the total is null exactly when no grade is valid, and otherwise the sum of the valid grades |
| GroupPerformance.Analyze | src/components/PerformanceChart.jsx:89-123 | one student's entry: missing grades read as `[]`, completed ≤ total tasks, the level follows the total and is never "struggling", and the shown grade is exactly the total rounded to the hundredth |
| GroupPerformance.PrecedesAllTail | src/components/PerformanceChart.jsx:124-130 | the head of a ranked list precedes everything after it |
| GroupPerformance.PrecedesAllPerm | src/components/PerformanceChart.jsx:124-130 | preceding every entry does not depend on their order |
| GroupPerformance.Insert | src/components/PerformanceChart.jsx:124-130 | inserting into a ranked list keeps it ranked and adds exactly that entry |
| GroupPerformance.Rank | src/components/PerformanceChart.jsx:124-130 | the sort yields a ranked permutation of its input |
| GroupPerformance.AnalyzeAll | src/components/PerformanceChart.jsx:88-131 | every student is analysed exactly once, and the result is ranked |
| GroupPerformance.RankingOrder | src/components/PerformanceChart.jsx:125-129 | in the ranking, students without data come after everyone graded, and graded students are by descending total |
| GroupPerformance.AnalyzedNeverStruggling | src/components/PerformanceChart.jsx:133-139 | no analysed student is ever classified "struggling" |
| GroupPerformance.CountLevel | src/components/PerformanceChart.jsx:143-144 | a level count never exceeds the group size, and a single student counts 1 exactly under its own level |
| GroupPerformance.CountLevelAppend | src/components/PerformanceChart.jsx:215-221 | the count of a level distributes over concatenation |
| GroupPerformance.Graded | src/components/PerformanceChart.jsx:147 | the filter keeps a total exactly for the students that have one: every kept total is some student's, every student's total is kept, and a single student contributes its own total or nothing |
| GroupPerformance.GradedAppend | src/components/PerformanceChart.jsx:147 | the filter distributes over concatenation, so the totals come in the students' order |
| GroupPerformance.CalculateStats | src/components/PerformanceChart.jsx:141-157 | the card counts the students, the critical ones, and the good plus excellent ones; the average is the mean of the graded totals rounded to the hundredth, and 0 without graded students |
| GroupPerformance.StatsAverageInRange | src/components/PerformanceChart.jsx:147-156 | the group average lies within the range of the graded totals, up to the rounding to hundredths |
| GroupPerformance.MeanOfBounded | src/components/PerformanceChart.jsx:148-149 | a mean of values within a range lies within it |
| GroupPerformance.MeanBounds | src/components/PerformanceChart.jsx:149 | dividing a bounded total by the count keeps the bound |
| GroupPerformance.PerformanceCounts | src/components/PerformanceChart.jsx:215-221 | each doughnut field is the count of its own level (excellent, good, average, critical, no data), and with the uncounted "struggling" entries they add up to the group size |
| GroupPerformance.CountsAddOne | src/components/PerformanceChart.jsx:215-221 | one more student raises exactly the field of its own level and leaves the other four unchanged |
| GroupPerformance.CountsCoverAll | src/components/PerformanceChart.jsx:215-221 | the counts of the six levels add up to the group size |
| GroupPerformance.NoStrugglingCount | src/components/PerformanceChart.jsx:215-221 | a list with no "struggling" entry counts none |
| GroupPerformance.DistributionCoversGroup | src/components/PerformanceChart.jsx:215-221 | over an analysed group, the five doughnut counts add up to exactly the number of students |
| StudentPerformance.FindStudent | src/components/StudentPerformanceChart.jsx:67 | `find` returns a row with the id (by `===`) exactly when one exists |
| StudentPerformance.FindStudentFirst | src/components/StudentPerformanceChart.jsx:67 | `find` returns the first matching row |
| StudentPerformance.FetchStudentPerformance | src/components/StudentPerformanceChart.jsx:47-85 | null exactly when the request throws; a not-ok reply gives no grades; otherwise the found student's grades, with `[]` when missing |
| StudentPerformance.CalculateStats | src/components/StudentPerformanceChart.jsx:127-159 | null for null data; otherwise task counts, the total of valid grades rounded to the hundredth (exactly `RoundHundredths` of the sum), and 0 without any |
| StudentPerformance.AgreesWithGroupChart | src/components/StudentPerformanceChart.jsx:127-159 | the student modal reports the same total, completed count and task count as the group chart's entry for that student |
| StudentPerformance.PrepareGradesChart | src/components/StudentPerformanceChart.jsx:88-124 | no chart without rows; one bar per row, with a missing name read as 'Tarea' and a missing number as 0 |
| StudentPerformance.ChartTotalsMatchStats | src/components/StudentPerformanceChart.jsx:92-97 | the obtained-points bars add up to the total the statistics card reports before rounding |
| StudentPerformance.Percentage | src/components/StudentPerformanceChart.jsx:346-350 | a trend point is 0 without a rate; otherwise the rounded percentage, within 0–100 when the grade does not exceed the rate |
| StudentPerformance.FractionBounds | src/components/StudentPerformanceChart.jsx:349 | a part of a positive whole is a fraction between 0 and 1 |
| StudentPerformance.TrendLine | src/components/StudentPerformanceChart.jsx:346-350 | the trend line has one point per task, each that task's percentage |
| StudentPerformance.StatusLabel | src/components/StudentPerformanceChart.jsx:303-306 | "Sin evaluar" exactly for a total ≤ 0 |
| StudentPerformance.PassLabel | src/components/StudentPerformanceChart.jsx:309 | "Pendiente" exactly for a total ≤ 0 |
| StudentPerformance.StatusMatchesLevel | src/components/StudentPerformanceChart.jsx:303-306 | for a positive total the status label names the same level as the group chart's thresholds |
| StudentPerformance.PassMatchesStatus | src/components/StudentPerformanceChart.jsx:309 | a total passes exactly when its label is Excelente, Bien or Regular, and fails exactly when it is Insuficiente |
| Scanner.Split | src/pages/Scanner.jsx:281 | `split('/')` gives at least one piece, and no piece holds the separator |
| Scanner.SplitJoin | src/pages/Scanner.jsx:281 | joining the pieces back gives the original path |
| Scanner.SplitNoSeparator | src/pages/Scanner.jsx:281 | a string without the separator splits into itself |
| Scanner.SplitAtFirst | src/pages/Scanner.jsx:281 | splitting at the first separator gives the first piece and then the split of the rest |
| Scanner.JoinSplit | src/pages/Scanner.jsx:281 | separator-free pieces joined and split again come back unchanged |
| Scanner.Segments | src/pages/Scanner.jsx:281 | `filter(part => part)` keeps exactly the non-empty pieces, and a list without empty pieces is unchanged |
| Scanner.SegmentsAppend | src/pages/Scanner.jsx:281 | the filter distributes over concatenation, so the kept pieces keep their order and multiplicity |
| Scanner.FindIndex | src/pages/Scanner.jsx:284 | `findIndex` is -1 exactly when the word is absent, and otherwise its first position |
| Scanner.ReadPathParts | src/pages/Scanner.jsx:283-306 | the non-empty pieces read only when "attendance" is followed by at least six pieces; the profile is the decoded pieces 1, 2, 4, 5 and 6 after it, with an empty surname; the raw piece 1 is the looked-up id; a failing decode throws |
| Scanner.LinkRoundTrip | src/pages/Scanner.jsx:280-304 | any link `…/attendance/id/name/x/grade/group/area/…`, whatever non-empty piece `x` is, reads back as that student's profile and raw id |
| Scanner.Prop | src/pages/Scanner.jsx:310-322 | reading a property throws exactly on `null`; otherwise it is the field's value, or undefined |
| Scanner.DecodeJson | src/pages/Scanner.jsx:310-322 | any non-null JSON value reads; the looked-up id is `data.id`; each shown field is the first truthy of its chain: name, nombre, "No disponible"; lastName, apellidos, ""; grade, grado; group, grupo; area, especialidad (each then "No disponible"); id, "No disponible" |
| Scanner.EnglishKeyWins | src/pages/Scanner.jsx:313-319 | when both spellings are present and truthy, the English key is shown, not its Spanish twin |
| Scanner.JsonRoundTrip | src/pages/Scanner.jsx:310-322 | a JSON object holding a profile under the Spanish keys reads back as that profile |
| Scanner.JsonWithoutIdStillDecodes | src/pages/Scanner.jsx:310-322 | a value without properties still reads, as the placeholders, and looks up `undefined` |
| Scanner.Decode | src/pages/Scanner.jsx:278-322 | a text starting with "http" and containing "/attendance/" is read as a link, and anything else as JSON; a thrown parse gives nothing |
| Scanner.RawId | src/pages/Scanner.jsx:334-345 | an unreadable scan shows its text, cut to 20 characters plus "..." when longer |
| Scanner.OnScanSuccess | src/pages/Scanner.jsx:246-346 | a reading scan shows its profile and starts the attendance post (and the lookup for a link); an unreadable one shows the raw text and posts nothing |
| Scanner.LinkScanLooksUp | src/pages/Scanner.jsx:325-333 | a link that reads always starts both the student lookup and the attendance post |
| Scanner.EstadoFor | src/pages/Scanner.jsx:228-243 | "Presente" exactly for `response === true`; "Asistencia ya registrada" exactly for an unconfirmed parsed reply whose `message` is "attendance already registered"; "Error al registrar" for every other reply and for a failed request |
| Scanner.OnAttendanceReply | src/pages/Scanner.jsx:207-244 | the reply's `response` is copied (false on failure) and its `estado` merged into the shown scan, whose profile is kept |
| Scanner.SuccessShownIffConfirmed | src/pages/Scanner.jsx:228-234 | the result view shows success exactly for a confirmed attendance |
| Scanner.OnLookupReply | src/pages/Scanner.jsx:183-205 | the student card changes only when `data && data.length > 0`: a non-empty array shows its first row, a non-empty JSON string its first character; nothing else changes |
| Scanner.ResetScanner | src/pages/Scanner.jsx:353-357 | reset clears the scan, the student card and the response, and enables start again |
| Scanner.ScanThenReset | src/pages/Scanner.jsx:246-357 | a scan disables start until the result is reset, and reset returns to the initial screen |
| Grupo.KeySetSnoc | src/pages/Grupo.jsx:98-99 | adding a row to the map adds exactly its key to the keys seen |
| Grupo.FirstOccurrences | src/pages/Grupo.jsx:91-104 | the de-duplicated rows have pairwise distinct keys, cover exactly the keys of the input, and all come from the input |
| Grupo.FirstKeyIsNew | src/pages/Grupo.jsx:98 | a row whose key no earlier row has adds a key not yet in the map |
| Grupo.AppendNewKey | src/pages/Grupo.jsx:98-99 | adding a row with a new key keeps the keys distinct |
| Grupo.RemoveDuplicates | src/pages/Grupo.jsx:91-104 | a non-array gives `[]`; otherwise the first row of every key, in order, with no key repeated and none lost |
| Grupo.KeyCollision | src/pages/Grupo.jsx:97 | two different students whose hyphen-joined keys coincide are merged: the second is dropped |
| Grupo.NormaliseTasks | src/pages/Grupo.jsx:445-448 | each task keeps all its other fields; its `name` is kept when truthy and is `nombre` otherwise |
| Grupo.NormaliseIdempotent | src/pages/Grupo.jsx:445-448 | normalising twice changes nothing more |
| Grupo.Rename | src/pages/Grupo.jsx:486-488 | exactly the tasks whose id is `=== id` get the new name; the others are unchanged |
| Grupo.ChangeNameTask | src/pages/Grupo.jsx:469-493 | the check-button path: the list is renamed once the request settles, and left as it was when the request throws |
| Grupo.ChangeNameByEnter | src/pages/Grupo.jsx:456-460 | the Enter path: the edited task shows the new name whatever the request does; on success the other tasks with its id are renamed too, and on failure the rest of the list is unchanged |
| Grupo.EnterVersusButton | src/pages/Grupo.jsx:456-493 | the Enter path and the check button give the same list when the request settles, and different lists when it throws and the name changes |
| Grupo.RenameIdempotent | src/pages/Grupo.jsx:486-488 | renaming twice is renaming once |
| Grupo.Delete | src/pages/Grupo.jsx:568 | the kept tasks all come from the list and lack the id; every task without the id is kept |
| Grupo.DeleteAppend | src/pages/Grupo.jsx:568 | the filter distributes over concatenation, so the kept tasks stay in order |
| Grupo.DeleteAbsent | src/pages/Grupo.jsx:568 | a list without the id is unchanged |
| Grupo.DeleteIdempotent | src/pages/Grupo.jsx:568 | deleting twice is deleting once |
| Grupo.DeleteAfterRename | src/pages/Grupo.jsx:486-568 | renaming a task and then deleting it is the same as deleting it |
| Grupo.DeleteTask | src/pages/Grupo.jsx:552-572 | the list is filtered once the request settles, and left as it was when the request throws |
| Grupo.FindTask | src/pages/Grupo.jsx:501-504 | `find` gives a task with the id exactly when one exists, and it is the first such task |
| Grupo.SetRate | src/pages/Grupo.jsx:536-538 | exactly the tasks whose id is `=== id` get the new rate; the others are unchanged |
| Grupo.ChangeRateTaskGroup | src/pages/Grupo.jsx:495-550 | without the task nothing is sent and an alert shows; an ok reply updates the rate locally; any failure alerts and keeps the list |
| Grupo.SearchFor | src/pages/Grupo.jsx:154-158 | a query that trims to nothing clears the results without a request; any other is searched as typed |
| Grupo.AddStudent | src/pages/Grupo.jsx:585-611 | refused with "Por favor complete todos los campos" exactly when a field is empty; otherwise the form, the page's group fields and the route's group id are posted |
| Grupo.AddTaskAllowed | src/pages/Grupo.jsx:628-629 | a task is posted only when the group has students |
| Grupo.EditGroup | src/pages/Grupo.jsx:722-762 | refused with "Todos los campos son obligatorios" exactly when a field is falsy; otherwise the group info becomes the form |
| Grupo.UpdateStudent | src/pages/Grupo.jsx:779-781 | sent exactly when no field is the empty string, and sent unchanged |
| Grupo.NeverSends | src/pages/Grupo.jsx:773-781 | `studentData` is never set, so with the form the page holds nothing is sent |
| Grupo.StudentGuardsAgree | src/pages/Grupo.jsx:586 | the add-student form and the edit-student form accept the same forms |
| Grupos.RenameAll | src/pages/Grupos.jsx:290-295 | every group keeps its fields and gains the renamed tasks; groups without a task array keep none |
| Grupos.SetRateAll | src/pages/Grupos.jsx:318-323 | every group keeps its fields and gains the new rate on the matching tasks |
| Grupos.DeleteAll | src/pages/Grupos.jsx:345-348 | every group keeps its fields, and its tasks lose exactly those with the id |
| Grupos.AgreesWithGroupPage | src/pages/Grupos.jsx:290-348 | the list-wide updates are the group page's updates applied to each group |
| Grupos.DeleteAllIdempotent | src/pages/Grupos.jsx:345-348 | deleting a task everywhere twice is deleting it once |
| Grupos.DeleteAllAfterRenameAll | src/pages/Grupos.jsx:290-348 | renaming a task everywhere and then deleting it is deleting it |
| Grupos.CreateGroup | src/pages/Grupos.jsx:354-390 | posted exactly when the three fields are truthy; a truthy `insertId` appends the group with no students, closes the modal and clears the form; any other outcome changes nothing |
| Grupos.CreatedFormBlocksRepeat | src/pages/Grupos.jsx:374-386 | after a creation the cleared form posts nothing until it is filled again, and exactly one group was added |
| Grupos.CreateKeepsExisting | src/pages/Grupos.jsx:374-386 | creating a group keeps the listed groups as a prefix and adds at most one |
| StudentInfo.CheckCredentials | src/pages/StudentInfo.jsx:110-117 | tasks are fetched only when both stored credentials are present and non-empty, and otherwise the error shows |
| StudentInfo.FormatTask | src/pages/StudentInfo.jsx:138-145 | the id falls back to the name, a falsy rate reads 10, and rows start in points mode with nothing typed |
| StudentInfo.FormatTasks | src/pages/StudentInfo.jsx:138-145 | a non-array reply gives no rows; otherwise one formatted row per task, in order |
| StudentInfo.HandleValueChange | src/pages/StudentInfo.jsx:163-172 | exactly the rows with the id take the typed text; the others are unchanged |
| StudentInfo.Toggle | src/pages/StudentInfo.jsx:178 | percentage becomes points, and anything else becomes percentage |
| StudentInfo.ToggleTwice | src/pages/StudentInfo.jsx:178 | switching twice restores the value exactly for the two modes the page sets |
| StudentInfo.ToggleRateType | src/pages/StudentInfo.jsx:175-184 | exactly the rows with the id switch mode; the others are unchanged |
| StudentInfo.ToggleRateTypeTwice | src/pages/StudentInfo.jsx:175-184 | on a table the page built, switching a row twice gives the table back |
| StudentInfo.FinalRate | src/pages/StudentInfo.jsx:187-210 | empty input is refused first; a percentage must lie in [0, 100] and is scaled by the rate; points must lie in [0, rate] and are sent as typed |
| StudentInfo.ScaledBounds | src/pages/StudentInfo.jsx:202 | a percentage in [0, 100] of a rate lies in [0, rate] |
| StudentInfo.FinalRateInRange | src/pages/StudentInfo.jsx:196-210 | in either mode an accepted grade lies between 0 and the task's rate |
| StudentInfo.PercentageMatchesPoints | src/pages/StudentInfo.jsx:196-210 | a percentage and the points it stands for send the same final rate |
| StudentInfo.CreateAttendance | src/pages/StudentInfo.jsx:341-365 | refused exactly without a date; otherwise the student's fields, the date and the id are posted |
| StudentInfo.CreatePermission | src/pages/StudentInfo.jsx:388-398 | the date is checked before the reason, and it is posted exactly when both are given |
| StudentInfo.PermissionImpliesAttendance | src/pages/StudentInfo.jsx:390-393 | a permission the page accepts is an attendance it would accept for the same day |
| Home.PeriodOf | src/pages/Home.jsx:21-23 | morning before 12, afternoon from 12 to before 18, night from 18 |
| Home.BeforeFirst | src/pages/Home.jsx:19 | `split('@')[0]` is the prefix before the first `@`, and holds no `@` |
| Home.UserName | src/pages/Home.jsx:19 | the greeting uses the email's local part, and "Profesor" when it is missing or empty |
| Home.UserNameOfAddress | src/pages/Home.jsx:19 | an address with a non-empty local part is greeted by that local part |
| Home.Greeting | src/pages/Home.jsx:17-24 | the greeting matches the period of the hour and names the user |
| Home.TotalStudents | src/pages/Home.jsx:29 | the sum over no groups is 0 |
| Home.TotalZeroIffAllEmpty | src/pages/Home.jsx:33-45 | the total is 0 exactly when every group is empty |
| Home.MaxAlumnos | src/pages/Home.jsx:48-59 | the largest group size is attained and bounds every group |
| Home.MinAlumnos | src/pages/Home.jsx:48-59 | the smallest group size is attained and bounds every group from below |
| Home.AverageStudents | src/pages/Home.jsx:30 | the average is 0 without groups, and otherwise the mean group size rounded to the nearest whole number |
| Home.StatusInsight | src/pages/Home.jsx:33-45 | the status card is informational exactly when no group has students, and a success card otherwise |
| Home.BalanceInsight | src/pages/Home.jsx:48-59 | a warning appears exactly when the largest and smallest groups differ by more than 10 |
| Home.SizeInsight | src/pages/Home.jsx:63-75 | a tip above 35 on average, a success card from 1 to 25, and nothing otherwise |
| Home.WeekdayInsight | src/pages/Home.jsx:78-93 | the weekday card appears exactly on Mondays and Fridays |
| Home.GenerateInsights | src/pages/Home.jsx:26-94 | one to four cards, the status card first and only once |
| Home.ExactlyOneStatusInsight | src/pages/Home.jsx:33-45 | there is exactly one status card, and it is informational exactly when every group is empty |
| Home.NoGroupsInsights | src/pages/Home.jsx:106-111 | without groups the dashboard shows the welcome card, plus the weekday card on Mondays and Fridays |
| Home.CalculateStats | src/pages/Home.jsx:117-133 | counts groups and students; the largest and smallest groups are those a stable descending sort puts first and last; the most recent is the last listed |
| GroupLinks.GenerateLink | src/pages/GroupLinks.jsx:84-120 | nothing happens without a selected group; success puts the new link first, closes the modal and clears the selection; every failure keeps the list and shows the server's error or the fallback text |
| GroupLinks.Remove | src/pages/GroupLinks.jsx:151-154 | the kept links come from the list and lack the id; every link without it is kept |
| GroupLinks.RemoveAppend | src/pages/GroupLinks.jsx:151-154 | the filter distributes over concatenation, so the kept links keep their order |
| GroupLinks.RemoveAbsent | src/pages/GroupLinks.jsx:151-154 | a list without the id is unchanged |
| GroupLinks.DeleteLink | src/pages/GroupLinks.jsx:133-164 | success drops the links with the id and closes the confirmation; every failure keeps the list and shows an error |
| GroupLinks.GenerateThenDelete | src/pages/GroupLinks.jsx:107-161 | generating a link with a fresh id and then deleting it gives the original list back |
| GroupLinks.OpenLink | src/pages/GroupLinks.jsx:128-131 | the opened address is the origin, then the public grades route, then the link's hash |
| GroupLinks.HashOf | src/pages/GroupLinks.jsx:128-131 | an address has a hash exactly when it starts with the origin and the grades route |
| GroupLinks.OpenLinkRoundTrip | src/pages/GroupLinks.jsx:128-131 | an opened address gives back its hash, and every public address is one `openLink` builds |
| GroupLinks.FormatDate | src/pages/GroupLinks.jsx:166-176 | an empty or absent date reads "Nunca"; any other is rendered |
| GroupLinks.GroupLabel | src/pages/GroupLinks.jsx:446 | the selector label is never empty: the group's name, else grade, group and speciality |
| SendMessage.HandleSend | src/components/SendMessageModal.jsx:10-57 | a blank message only shows the error; otherwise the trimmed text is posted; delivery clears the message and notifies the callback; every failure keeps the message and shows the error |
| SendMessage.HandleClose | src/components/SendMessageModal.jsx:59-65 | close is ignored while sending; otherwise it clears and closes the modal |
| SendMessage.SendEnabled | src/components/SendMessageModal.jsx:180 | the button is enabled exactly when not sending, with non-blank text of at most 500 characters |
| SendMessage.EnabledSends | src/components/SendMessageModal.jsx:180 | whatever the enabled button submits is posted |
| SendMessage.LengthLimitOnlyInButton | src/components/SendMessageModal.jsx:10-31 | the length limit is only in the button: the handler posts a 501-character message |
| SendMessage.StatusText | src/components/SendMessageModal.jsx:136-153 | no line without a status; a success reads "¡Mensaje enviado correctamente!"; an error reads as the blank-message prompt or the failure text |
| SendMessage.StatusTextAfterSend | src/components/SendMessageModal.jsx:146-153 | after a send, the status line names the actual outcome |

## Left out

- Camera streams, the face-api models, canvases and video elements. Their results (`cameraGranted`, `modelsReady`, `ready`, the detection list and the descriptor) are inputs.
- Overlapping asynchronous interval callbacks. Each tick is modelled as finishing before the next event.
- `fetch`, `localStorage` and `btoa` are left out. Replies are inputs, and the stored email and password are left out of request bodies.
- Floating point: `NaN`, `parseFloat` and `Number(...)` are left out. Grades and inputs are already numbers, or absent.
- `new URL`, `JSON.parse`, `decodeURIComponent` and `toLocaleDateString` are inputs or function parameters.
- The current time (`getHours`, `getDay`) is an input.
- Rendering is left out: chart options, colours, icons, the copy-to-clipboard feedback and the `setTimeout` auto-close after an attendance.
- SendMessage.HandleSend: the two-second auto-close after a successful send (src/components/SendMessageModal.jsx:43-46), which calls `onClose` and resets the status, is a timer and is left out.
- Scanner.DecodeJson, Scanner.ReadPathParts: the `hora` field (`new Date().toLocaleTimeString()`, src/pages/Scanner.jsx:302,320,341) is the clock and is not part of the modelled profile.
- Scanner.OnLookupReply: an object reply carrying its own truthy `length` property and indexable `0` is not modelled; such replies are `LookupOther`.
- GroupPerformance.Rank: the sort is modelled as an insertion sort; its stability (equal totals keep their input order, as JavaScript's `sort` promises) is not stated.
- Converting descriptors to `Float32Array`/`Array.from` is left out. A descriptor is an opaque value.
- String lengths and `substring` count UTF-16 code units in the source and characters here.
- The email segment of the attendance link is not read by the source and is ignored here too.
- Template strings are not modelled. The fields interpolated into the de-duplication key and the selector label are taken as text.
- Alert texts that interpolate a number are replaced by a refusal reason.
- Loading flags, error banners of `getStudent` and `fetchGroups`/`fetchLinks` are left out.
- Grupos.RenameAll, Grupos.SetRateAll, Grupos.DeleteAll: modelled as written. In the page the handlers are declared after the component's `return` (src/pages/Grupos.jsx:256), so nothing calls them.
- Grupos.CreateGroup: `data[0]?.insertId` is taken as an input, and the appended row's other server fields are not modelled.
- Grupo.EditGroup: models the field check and the state after an ok reply (the group info becomes the form and the form closes). When the reply is not ok or the request throws (src/pages/Grupo.jsx:753-768) the group info stays unchanged and the form stays open with an error banner; that branch is not modelled.
- Grupo.ChangeRateTaskGroup: the `getStudents()` refresh after the local update is left out.
- The `'quality_error'` and `'already_registered'` statuses are rendered but never assigned, so they have no constructor.
- The "struggling" level is drawn but never produced; the model keeps it so that this can be proved.
- `FaceRecordDeleteButton.jsx`, `FaceRecognitionButton.jsx`, the login, landing, join-request and grades-view pages are not part of this model.

## Findings

| source | as written | input that shows it | evidently intended | confidence | as-written member | corrected member |
|---|---|---|---|---|---|---|
| src/components/FaceRecognitionModal.jsx:172-190 | the registration reply handler clears the `detectionInterval` captured when the scan started | start a scan, let a face be accepted, press stop and start again while the request is in flight, then deliver the reply: the second interval keeps running with `isScanning` false, survives stop and close, and posts a second registration | clear the interval the modal holds when the reply arrives | medium, not executed | FaceRegistration.StaleReplyLeaksInterval | FaceRegistration.InvPreserved |

=== FILE: attendance.dfy ===
/**
 * The attendance call shared by the face-verification modal and the QR
 * scanner page: both post the same body built from a student profile, and
 * both read the same `{ response, message }` reply.
 */
module Attendance {
  import opened Common

  /** The student fields both callers hold (search reply or decoded QR payload). */
  datatype StudentProfile = StudentProfile(
    id: JsValue,
    nombre: JsValue,
    apellidos: JsValue,
    grado: JsValue,
    grupo: JsValue,
    especialidad: JsValue)

  /** Body of `POST /attendance` (the `emailUser` field comes from browser storage and is left out). */
  datatype AttendanceRequest = AttendanceRequest(
    name: JsValue,
    lastName: JsValue,
    grade: JsValue,
    group: JsValue,
    area: JsValue,
    id: JsValue)

  /** Reply of `POST /attendance`: a parsed body, or a failed fetch or parse. */
  datatype AttendanceReply = AttendanceFailed | AttendanceParsed(response: JsValue, message: JsValue)

  /** The body `registerAttendance(studentData)` posts: a field renaming of the profile. */
  function AttendanceBody(p: StudentProfile): (r: AttendanceRequest)
    ensures r.name == p.nombre && r.lastName == p.apellidos && r.id == p.id
    ensures r.grade == p.grado && r.group == p.grupo && r.area == p.especialidad
  {
    AttendanceRequest(p.nombre, p.apellidos, p.grado, p.grupo, p.especialidad, p.id)
  }

  /** The renaming loses nothing: the profile can be read back from the body. */
  function ProfileOf(r: AttendanceRequest): StudentProfile {
    StudentProfile(r.id, r.name, r.lastName, r.grade, r.group, r.area)
  }

  lemma AttendanceBodyRoundTrip(p: StudentProfile)
    ensures ProfileOf(AttendanceBody(p)) == p
  {
  }

  /** `data.response === true`: the only reply both callers treat as a registered attendance. */
  predicate Confirmed(reply: AttendanceReply) {
    reply.AttendanceParsed? && StrictEq(reply.response, Bool(true))
  }
}

=== FILE: common.dfy ===
/**
 * Shared vocabulary for the client-side logic of the classroom application:
 * optional values, the part of JavaScript's value model the pages inspect
 * (truthiness, `||` fallback chains, strict equality), `String.prototype.trim`
 * and `Math.round`.
 */
module Common {

  datatype Option<+T> = None | Some(value: T) {
    function GetOr(default: T): T {
      match this
      case Some(v) => v
      case None => default
    }
  }

  /** The outcome of a handler that either produces a value or reports an error message. */
  datatype Result<+R> = Success(value: R) | Failure(error: string)

  /**
   * A JavaScript value as far as the modelled code looks at it. `Obj` stands
   * for any object or array: always truthy, and never strictly equal to a
   * value read from elsewhere (objects compare by reference).
   */
  datatype JsValue = Undefined | Null | Bool(b: bool) | Num(n: real) | Str(s: string) | Obj

  /** JavaScript truthiness (NaN is not modelled). */
  predicate Truthy(v: JsValue) {
    match v
    case Undefined => false
    case Null => false
    case Bool(b) => b
    case Num(n) => n != 0.0
    case Str(s) => s != ""
    case Obj => true
  }

  /** The expression `a || b`: `a` when it is truthy, otherwise `b`. */
  function Or(a: JsValue, b: JsValue): (r: JsValue)
    ensures Truthy(r) <==> Truthy(a) || Truthy(b)
    ensures r == a || r == b
  {
    if Truthy(a) then a else b
  }

  /** The expression `a === b` (NaN is not modelled; objects are never equal). */
  predicate StrictEq(a: JsValue, b: JsValue) {
    a == b && !a.Obj?
  }

  /** The characters `String.prototype.trim` removes: WhiteSpace and LineTerminator. */
  predicate IsJsSpace(c: char) {
    || c == ' ' || c == '\t' || c == '\n' || c == '\r'
    || c == '\U{000B}' || c == '\U{000C}' || c == '\U{00A0}' || c == '\U{FEFF}'
    || c == '\U{1680}' || ('\U{2000}' <= c <= '\U{200A}') || c == '\U{2028}' || c == '\U{2029}'
    || c == '\U{202F}' || c == '\U{205F}' || c == '\U{3000}'
  }

  /** A string that `trim()` turns into the empty string. */
  predicate IsBlank(s: string) {
    forall k :: 0 <= k < |s| ==> IsJsSpace(s[k])
  }

  /** Leading whitespace removed: the longest suffix that does not start with a space. */
  function TrimStart(s: string): (r: string)
    ensures |r| <= |s| && r == s[|s| - |r|..]
    ensures forall k :: 0 <= k < |s| - |r| ==> IsJsSpace(s[k])
    ensures r == [] || !IsJsSpace(r[0])
  {
    if |s| == 0 || !IsJsSpace(s[0]) then s else TrimStart(s[1..])
  }

  /** Trailing whitespace removed: the longest prefix that does not end with a space. */
  function TrimEnd(s: string): (r: string)
    ensures |r| <= |s| && r == s[..|r|]
    ensures forall k :: |r| <= k < |s| ==> IsJsSpace(s[k])
    ensures r == [] || !IsJsSpace(r[|r| - 1])
  {
    if |s| == 0 || !IsJsSpace(s[|s| - 1]) then s else TrimEnd(s[..|s| - 1])
  }

  /** `s.trim()`. */
  function Trim(s: string): string {
    TrimEnd(TrimStart(s))
  }

  /** `s.trim()` is empty exactly when every character of `s` is whitespace. */
  lemma TrimEmptyIffBlank(s: string)
    ensures Trim(s) == "" <==> IsBlank(s)
  {
    var t := TrimStart(s);
    if Trim(s) == "" {
      forall k | 0 <= k < |s|
        ensures IsJsSpace(s[k])
      {
        if k >= |s| - |t| {
          assert s[k] == t[k - (|s| - |t|)];
        }
      }
    } else {
      var k := |s| - |t|;
      assert t != [] && !IsJsSpace(t[0]);
      assert s[k] == t[0];
    }
  }

  /** `trim()` keeps a contiguous block of `s` and never lengthens it. */
  lemma TrimIsInfix(s: string)
    ensures exists i, j :: 0 <= i <= j <= |s| && Trim(s) == s[i..j]
  {
    var t := TrimStart(s);
    var i := |s| - |t|;
    var e := TrimEnd(t);
    var j := i + |e|;
    assert t == s[i..];
    assert e == t[..|e|];
    assert s[i..][..|e|] == s[i..j];
  }

  /** JavaScript `Math.round` on a finite number: halves round towards +infinity. */
  function JsRound(x: real): (r: int)
    ensures x - 0.5 < r as real <= x + 0.5
  {
    (x + 0.5).Floor
  }

  /** `Math.round(x * 100) / 100`: `x` rounded to hundredths. */
  function RoundHundredths(x: real): (r: real)
    ensures x - 0.005 < r <= x + 0.005
    ensures (r * 100.0).Floor as real == r * 100.0
  {
    JsRound(x * 100.0) as real / 100.0
  }

  /** The two facts above pin the result down: it is the only whole number of hundredths within the allowance. */
  lemma RoundHundredthsUnique(x: real, c: int)
    requires x - 0.005 < c as real / 100.0 <= x + 0.005
    ensures RoundHundredths(x) == c as real / 100.0
  {
    var r := RoundHundredths(x);
    var n := (r * 100.0).Floor;
    assert r == n as real / 100.0;
    assert x * 100.0 - 0.5 < n as real <= x * 100.0 + 0.5;
    assert x * 100.0 - 0.5 < c as real <= x * 100.0 + 0.5;
    assert n - c < 1 && c - n < 1;
  }

  /** Rounding a whole number gives it back, so rounding is the identity on integers. */
  lemma JsRoundOfInt(n: int)
    ensures JsRound(n as real) == n
  {
    var r := JsRound(n as real);
    assert n as real - 0.5 < r as real <= n as real + 0.5;
  }
}

=== FILE: face_capture.dfy ===
/**
 * The pieces shared by the three face-capture screens: the quality gate
 * applied to each detection tick, the live feedback it produces, the table of
 * running detection intervals, and the request bodies sent to the face
 * endpoints. Face detection itself (camera frames, landmarks, descriptors) is
 * an input: a tick receives the detections the face library returned.
 */
module FaceCapture {
  import opened Common

  /** Minimum detector confidence for an accepted face. */
  const MinScore: real := 0.9
  /** Minimum width and height of an accepted face box, in pixels. */
  const MinFaceSizePx: real := 150.0
  /** Neighbours requested from the face search by the verification modal. */
  const SearchTopK: nat := 20

  /** The face descriptor, treated as an opaque vector. */
  type Embedding = seq<real>

  datatype Box = Box(width: real, height: real)

  datatype Detection = Detection(score: real, box: Box, descriptor: Embedding)

  datatype QualityError = LowScore | SmallFace

  datatype Verdict = Accepted | Rejected(reason: QualityError) | NoFace

  /** The detection the screens look at: the first one, when there is any. */
  function FirstDetection(ds: seq<Detection>): (d: Option<Detection>)
    ensures d.Some? <==> |ds| > 0
    ensures d.Some? ==> d.value == ds[0]
  {
    if |ds| > 0 then Some(ds[0]) else None
  }

  predicate MeetsQuality(det: Detection) {
    det.score >= MinScore && det.box.width >= MinFaceSizePx && det.box.height >= MinFaceSizePx
  }

  /** The quality gate of one tick. */
  function Evaluate(d: Option<Detection>): (v: Verdict)
    ensures v == NoFace <==> d.None?
    ensures v == Accepted <==>
      d.Some? && d.value.score >= 0.9 && d.value.box.width >= 150.0 && d.value.box.height >= 150.0
    ensures v == Rejected(LowScore) <==> d.Some? && d.value.score < 0.9
    ensures v == Rejected(SmallFace) <==>
      d.Some? && d.value.score >= 0.9 && (d.value.box.width < 150.0 || d.value.box.height < 150.0)
  {
    match d
    case None => NoFace
    case Some(det) =>
      if MeetsQuality(det) then Accepted
      else if det.score < MinScore then Rejected(LowScore)
      else Rejected(SmallFace)
  }

  /** A low score is reported as such whatever the size of the face. */
  lemma LowScoreDominates(det: Detection)
    requires det.score < MinScore
    ensures forall b: Box :: Evaluate(Some(det.(box := b))) == Rejected(LowScore)
  {
  }

  datatype QualityStatus = Good | Poor

  /** What the modal shows about the last tick: `qualityStatus`, `qualityError`, `currentScore`, `currentSize`. */
  datatype Feedback = Feedback(status: Option<QualityStatus>, error: Option<QualityError>, score: real, size: Box)

  const InitialFeedback: Feedback := Feedback(None, None, 0.0, Box(0.0, 0.0))

  /** The feedback a tick leaves, in both modals. */
  function TickFeedback(d: Option<Detection>): (f: Feedback)
    ensures d.None? ==> f == InitialFeedback
    ensures d.Some? ==> f.score == d.value.score && f.size == d.value.box
    ensures f.status == Some(Good) <==> Evaluate(d) == Accepted
    ensures f.status == Some(Poor) <==> Evaluate(d).Rejected?
    ensures f.error.Some? <==> Evaluate(d).Rejected?
    ensures Evaluate(d).Rejected? ==> f.error == Some(Evaluate(d).reason)
  {
    match d
    case None => InitialFeedback
    case Some(det) =>
      var v := Evaluate(d);
      if v == Accepted then Feedback(Some(Good), None, det.score, det.box)
      else Feedback(Some(Poor), Some(v.reason), det.score, det.box)
  }

  /** A `setInterval` handle. */
  type Handle = nat

  /**
   * The running detection intervals. Each live handle maps to the data its
   * callback closed over when it was scheduled; `next` hands out fresh handles.
   */
  datatype Timers<C> = Timers(live: map<Handle, C>, next: Handle)

  ghost predicate FreshAbove<C>(t: Timers<C>) {
    forall h :: h in t.live ==> h < t.next
  }

  const NoTimers: Timers<Option<Handle>> := Timers(map[], 1)

  /** `setInterval`: a new live interval whose callback captured `c`. */
  function Schedule<C>(t: Timers<C>, c: C): (r: (Timers<C>, Handle))
    requires FreshAbove(t)
    ensures FreshAbove(r.0)
    ensures r.1 !in t.live
    ensures r.0.live == t.live[r.1 := c]
  {
    (Timers(t.live[t.next := c], t.next + 1), t.next)
  }

  /** `clearInterval(h)`: no effect when `h` is not live. */
  function Cancel<C>(t: Timers<C>, h: Handle): (r: Timers<C>)
    requires FreshAbove(t)
    ensures FreshAbove(r)
    ensures r.live.Keys == t.live.Keys - {h}
    ensures forall g :: g in r.live ==> r.live[g] == t.live[g]
    ensures r.next == t.next
  {
    t.(live := t.live - {h})
  }

  /** `if (handle) clearInterval(handle)` for a handle held in component state. */
  function CancelHeld<C>(t: Timers<C>, h: Option<Handle>): (r: Timers<C>)
    requires FreshAbove(t)
    ensures FreshAbove(r)
    ensures r.live.Keys == if h.Some? then t.live.Keys - {h.value} else t.live.Keys
  {
    if h.Some? then Cancel(t, h.value) else t
  }

  /** Bodies of the face endpoints. */
  datatype FaceRequest =
    | RegisterFace(userId: JsValue, embedding: Embedding)
    | SearchInGroup(groupId: string, embedding: Embedding, k: nat)
    | SearchByUser(userId: JsValue, embedding: Embedding, k: nat)
}

=== FILE: face_legacy.dfy ===
/**
 * The older stand-alone face page. It has no quality gate and no models
 * check: any tick that sees a face clears its interval and posts the first
 * descriptor, to the registration endpoint with a fixed user id or to the
 * search endpoint with `k: 1`. Replies are only logged, so `isScanning`
 * stays true after a submission until the user presses Stop.
 */
module FaceLegacy {
  import opened Common
  import opened FaceCapture

  datatype Mode = RegisterMode | VerifyMode

  /** The fixed id the page registers every face under. */
  const FixedUserId: string := "4655"

  /** The interval callback closes over the mode it was started in. */
  datatype Session = Session(
    isScanning: bool,
    detectionInterval: Option<Handle>,
    timers: Timers<Mode>,
    submissions: nat)

  function Initial(): (s: Session)
    ensures Inv(s) && !s.isScanning
  {
    Session(false, None, Timers(map[], 1), 0)
  }

  ghost predicate Inv(s: Session) {
    && FreshAbove(s.timers)
    && (s.isScanning ==> s.detectionInterval.Some? && s.timers.live.Keys <= {s.detectionInterval.value})
    && (!s.isScanning ==> s.timers.live == map[])
  }

  /** The body posted for a descriptor in each mode. */
  function RequestFor(mode: Mode, descriptor: Embedding): (r: FaceRequest)
    ensures mode == RegisterMode ==> r.RegisterFace? && r.userId == Str("4655") && r.embedding == descriptor
    ensures mode == VerifyMode ==> r.SearchByUser? && r.userId == Num(4655.0) && r.k == 1 && r.embedding == descriptor
  {
    match mode
    case RegisterMode => RegisterFace(Str(FixedUserId), descriptor)
    case VerifyMode => SearchByUser(Num(4655.0), descriptor, 1)
  }

  /** `startScanningRegister` / `startScanningVerify`: guarded by `!isScanning` only. */
  function Start(s: Session, mode: Mode): (r: Session)
    requires FreshAbove(s.timers)
    ensures FreshAbove(r.timers)
    ensures s.isScanning ==> r == s
    ensures !s.isScanning ==>
      && r.isScanning && r.detectionInterval.Some?
      && r.detectionInterval.value !in s.timers.live
      && r.timers.live == s.timers.live[r.detectionInterval.value := mode]
  {
    if !s.isScanning then
      var (t, h) := Schedule(s.timers, mode);
      s.(isScanning := true, detectionInterval := Some(h), timers := t)
    else s
  }

  /** One firing of interval `h`: any face at all is submitted. */
  function Tick(s: Session, h: Handle, ready: bool, detections: seq<Detection>): (r: (Session, Option<FaceRequest>))
    requires FreshAbove(s.timers)
    ensures FreshAbove(r.0.timers)
    ensures r.1.Some? <==> h in s.timers.live && ready && |detections| > 0
    ensures r.1.Some? ==>
      && r.1.value == RequestFor(s.timers.live[h], detections[0].descriptor)
      && r.0.timers.live.Keys == s.timers.live.Keys - {h}
      && r.0.submissions == s.submissions + 1
    ensures r.0.isScanning == s.isScanning && r.0.detectionInterval == s.detectionInterval
    ensures r.1.None? ==> r.0 == s
  {
    if h in s.timers.live && ready && |detections| > 0 then
      (s.(timers := Cancel(s.timers, h), submissions := s.submissions + 1),
       Some(RequestFor(s.timers.live[h], detections[0].descriptor)))
    else (s, None)
  }

  /** Without a quality gate, a face that the modals reject is still submitted. */
  lemma NoQualityGate(s: Session, h: Handle, det: Detection)
    requires FreshAbove(s.timers) && h in s.timers.live
    requires Evaluate(Some(det)) != Accepted
    ensures Tick(s, h, true, [det]).1.Some?
  {
  }

  /** `stopScanning`: acts only while scanning with a held interval. */
  function Stop(s: Session): (r: Session)
    requires FreshAbove(s.timers)
    ensures FreshAbove(r.timers)
    ensures !(s.isScanning && s.detectionInterval.Some?) ==> r == s
    ensures s.isScanning && s.detectionInterval.Some? ==>
      && !r.isScanning && r.detectionInterval == None
      && r.timers.live.Keys == s.timers.live.Keys - {s.detectionInterval.value}
    ensures r == s.(timers := r.timers, detectionInterval := r.detectionInterval, isScanning := r.isScanning)
    ensures r.timers.next == s.timers.next
    ensures forall g :: g in r.timers.live ==> r.timers.live[g] == s.timers.live[g]
  {
    if s.isScanning && s.detectionInterval.Some? then
      s.(timers := Cancel(s.timers, s.detectionInterval.value), detectionInterval := None, isScanning := false)
    else s
  }

  datatype Event = StartEv(mode: Mode) | TickEv(h: Handle, ready: bool, detections: seq<Detection>) | StopEv

  function Apply(s: Session, e: Event): Session
    requires FreshAbove(s.timers)
  {
    match e
    case StartEv(m) => Start(s, m)
    case TickEv(h, ready, ds) => Tick(s, h, ready, ds).0
    case StopEv => Stop(s)
  }

  lemma InvPreserved(s: Session, e: Event)
    requires Inv(s)
    ensures Inv(Apply(s, e))
  {
  }

  /**
   * After a submission the page still reports scanning, so both start
   * buttons do nothing until Stop is pressed.
   */
  lemma StuckScanningAfterSubmission(s: Session, h: Handle, ds: seq<Detection>, mode: Mode)
    requires Inv(s) && h in s.timers.live && |ds| > 0
    ensures var r := Tick(s, h, true, ds).0;
      r.isScanning && Start(r, mode) == r && r.timers.live == map[]
  {
  }
}

=== FILE: face_registration.dfy ===
/**
 * The face-registration modal: scan until a detection passes the quality
 * gate, then store its descriptor against the student shown in the modal.
 *
 * Unlike verification, the modal keeps `isScanning` true while the request is
 * in flight and only resets it when the reply arrives. The reply handler also
 * tries to clear `detectionInterval`, but reads the value its closure captured
 * when scanning started. `OnReplyAsWritten` models that handler; with it, a
 * Stop and a new Start while a registration is in flight leave an interval
 * running that nothing can stop any more (`StaleReplyLeaksInterval`).
 * `OnReply` clears the interval the state holds at reply time, and the
 * modal built on it keeps the scanning invariant (`InvPreserved`).
 */
module FaceRegistration {
  import opened Common
  import opened FaceCapture

  /** `registrationStatus` ('quality_error' is rendered but never assigned). */
  datatype RegisterStatus = RegisterSuccess | RegisterError

  datatype Session = Session(
    studentId: JsValue,
    isOpen: bool,
    modelsLoaded: bool,
    tracksLive: bool,
    isScanning: bool,
    detectionInterval: Option<Handle>,
    openedWith: Option<Handle>,
    timers: Timers<Option<Handle>>,
    status: Option<RegisterStatus>,
    feedback: Feedback,
    submissions: nat)

  function Initial(studentId: JsValue): (s: Session)
    ensures Inv(s) && !s.isScanning && s.submissions == 0
  {
    Session(studentId, false, false, false, false, None, None, NoTimers, None, InitialFeedback, 0)
  }

  /** Reply of `POST /registerFaceStudent`: the body is never looked at. */
  datatype RegisterReply = RegisterParsed | RegisterFailed

  /** Intervals run only while scanning and only the held one; scanning always holds one. */
  ghost predicate Inv(s: Session) {
    && FreshAbove(s.timers)
    && (s.detectionInterval.Some? ==> s.timers.live.Keys <= {s.detectionInterval.value})
    && (s.detectionInterval.None? ==> s.timers.live == map[])
    && (s.isScanning ==> s.detectionInterval.Some?)
    && (!s.isScanning ==> s.timers.live == map[])
  }

  function Open(s: Session, cameraGranted: bool, modelsReady: bool): (r: Session)
    ensures r.isOpen && r.openedWith == s.detectionInterval
    ensures r.tracksLive == (s.tracksLive || cameraGranted)
    ensures r.modelsLoaded == (s.modelsLoaded || modelsReady)
    ensures r.timers == s.timers && r.isScanning == s.isScanning
  {
    s.(isOpen := true, openedWith := s.detectionInterval,
       tracksLive := s.tracksLive || cameraGranted, modelsLoaded := s.modelsLoaded || modelsReady)
  }

  /** `startScanningRegister`. */
  function Start(s: Session): (r: Session)
    requires FreshAbove(s.timers)
    ensures FreshAbove(r.timers)
    ensures s.isScanning || !s.modelsLoaded ==> r == s
    ensures !s.isScanning && s.modelsLoaded ==>
      && r.isScanning && r.status == None
      && r.feedback.status == None && r.feedback.error == None
      && r.detectionInterval.Some? && r.detectionInterval.value !in s.timers.live
      && r.timers.live == s.timers.live[r.detectionInterval.value := s.detectionInterval]
  {
    if !s.isScanning && s.modelsLoaded then
      var (t, h) := Schedule(s.timers, s.detectionInterval);
      s.(isScanning := true, status := None,
         feedback := s.feedback.(status := None, error := None),
         detectionInterval := Some(h), timers := t)
    else s
  }

  /** One firing of interval `h`: an accepted face clears `h` and posts the descriptor. */
  function Tick(s: Session, h: Handle, ready: bool, detections: seq<Detection>): (r: (Session, Option<FaceRequest>))
    requires FreshAbove(s.timers)
    ensures FreshAbove(r.0.timers)
    ensures r.1.Some? <==> h in s.timers.live && ready && Evaluate(FirstDetection(detections)) == Accepted
    ensures r.1.Some? ==>
      && r.1.value == RegisterFace(s.studentId, detections[0].descriptor)
      && r.0.timers.live.Keys == s.timers.live.Keys - {h}
      && r.0.isScanning == s.isScanning
      && r.0.submissions == s.submissions + 1
    ensures r.1.None? ==>
      r.0.timers == s.timers && r.0.isScanning == s.isScanning && r.0.submissions == s.submissions
    ensures h in s.timers.live && ready && |detections| == 0 ==>
      r.0.feedback == Feedback(None, None, 0.0, Box(0.0, 0.0))
    ensures h in s.timers.live && ready ==> r.0.feedback == TickFeedback(FirstDetection(detections))
  {
    if h !in s.timers.live || !ready then (s, None)
    else
      var d := FirstDetection(detections);
      var s1 := s.(feedback := TickFeedback(d));
      if Evaluate(d) == Accepted then
        (s1.(timers := Cancel(s1.timers, h), submissions := s.submissions + 1),
         Some(RegisterFace(s.studentId, d.value.descriptor)))
      else (s1, None)
  }

  /** `stopScanning`: acts only while scanning with a held interval. */
  function Stop(s: Session): (r: Session)
    requires FreshAbove(s.timers)
    ensures FreshAbove(r.timers)
    ensures !(s.isScanning && s.detectionInterval.Some?) ==> r == s
    ensures s.isScanning && s.detectionInterval.Some? ==>
      && !r.isScanning && r.detectionInterval == None
      && r.timers.live.Keys == s.timers.live.Keys - {s.detectionInterval.value}
    ensures r == s.(timers := r.timers, detectionInterval := r.detectionInterval, isScanning := r.isScanning)
    ensures r.timers.next == s.timers.next
    ensures forall g :: g in r.timers.live ==> r.timers.live[g] == s.timers.live[g]
    ensures r.status == s.status && r.submissions == s.submissions
  {
    if s.isScanning && s.detectionInterval.Some? then
      s.(timers := Cancel(s.timers, s.detectionInterval.value), detectionInterval := None, isScanning := false)
    else s
  }

  /** The outcome both reply handlers write: success for any parsed body, error otherwise. */
  function ReplyStatus(reply: RegisterReply): RegisterStatus {
    if reply.RegisterParsed? then RegisterSuccess else RegisterError
  }

  /**
   * The reply handler as written: `captured` is the `detectionInterval`
   * value of the render in which scanning started.
   */
  function OnReplyAsWritten(s: Session, captured: Option<Handle>, reply: RegisterReply): (r: Session)
    requires FreshAbove(s.timers)
    ensures FreshAbove(r.timers)
    ensures !r.isScanning
    ensures r.status == Some(RegisterSuccess) <==> reply.RegisterParsed?
    ensures r.status == Some(RegisterError) <==> reply.RegisterFailed?
    ensures r.timers.live.Keys == if captured.Some? then s.timers.live.Keys - {captured.value} else s.timers.live.Keys
  {
    var s1 := s.(status := Some(ReplyStatus(reply)), isScanning := false);
    if captured.Some? then s1.(timers := Cancel(s1.timers, captured.value), detectionInterval := None) else s1
  }

  /** The reply handler reading the interval the state holds when the reply arrives. */
  function OnReply(s: Session, reply: RegisterReply): (r: Session)
    requires FreshAbove(s.timers)
    ensures FreshAbove(r.timers)
    ensures !r.isScanning && r.detectionInterval == None
    ensures r.status == Some(RegisterSuccess) <==> reply.RegisterParsed?
    ensures r.status == Some(RegisterError) <==> reply.RegisterFailed?
    ensures r.timers.live.Keys ==
      if s.detectionInterval.Some? then s.timers.live.Keys - {s.detectionInterval.value} else s.timers.live.Keys
  {
    s.(status := Some(ReplyStatus(reply)), isScanning := false,
       timers := CancelHeld(s.timers, s.detectionInterval), detectionInterval := None)
  }

  /** `continueRegistration`: status and quality feedback back to their initial values. */
  function Continue(s: Session): (r: Session)
    ensures r.status == None && r.feedback == Feedback(None, None, 0.0, Box(0.0, 0.0))
    ensures r.timers == s.timers && r.isScanning == s.isScanning
  {
    s.(status := None, feedback := InitialFeedback)
  }

  /** The start button is rendered only when idle with no result on screen. */
  predicate StartButtonShown(s: Session) {
    !s.isScanning && s.status == None
  }

  /** After a reply, continuing brings the start button back. */
  lemma ContinueReenablesStart(s: Session, reply: RegisterReply)
    requires FreshAbove(s.timers)
    ensures StartButtonShown(Continue(OnReply(s, reply)))
    ensures StartButtonShown(Continue(OnReplyAsWritten(s, None, reply)))
  {
  }

  /** `handleClose`: stop scanning, stop the camera tracks, reset, close. */
  function Close(s: Session): (r: Session)
    requires FreshAbove(s.timers)
    ensures FreshAbove(r.timers)
    ensures !r.tracksLive && !r.isOpen && r.status == None && r.feedback == InitialFeedback
    ensures r.submissions == s.submissions
  {
    var s1 := Stop(s);
    s1.(tracksLive := false, status := None, feedback := InitialFeedback, isOpen := false,
        timers := CancelHeld(s1.timers, s.openedWith))
  }

  datatype Event =
    | OpenEv(cameraGranted: bool, modelsReady: bool)
    | StartEv
    | TickEv(h: Handle, ready: bool, detections: seq<Detection>)
    | StopEv
    | ReplyEv(reply: RegisterReply)
    | ContinueEv
    | CloseEv

  /** The modal with the corrected reply handler. */
  function Apply(s: Session, e: Event): Session
    requires FreshAbove(s.timers)
  {
    match e
    case OpenEv(c, m) => Open(s, c, m)
    case StartEv => Start(s)
    case TickEv(h, ready, ds) => Tick(s, h, ready, ds).0
    case StopEv => Stop(s)
    case ReplyEv(rep) => OnReply(s, rep)
    case ContinueEv => Continue(s)
    case CloseEv => Close(s)
  }

  /** With the corrected reply handler, no interval outlives its scan. */
  lemma InvPreserved(s: Session, e: Event)
    requires Inv(s)
    ensures Inv(Apply(s, e))
  {
    match e
    case TickEv(h, ready, ds) =>
    case StartEv =>
    case StopEv =>
    case ReplyEv(rep) =>
    case CloseEv =>
    case _ =>
  }

  /** With the corrected handler, closing leaves no interval and no camera track running. */
  lemma CloseReleasesEverything(s: Session)
    requires Inv(s)
    ensures !Close(s).tracksLive && !Close(s).isScanning && Close(s).timers.live == map[]
  {
  }

  const Face: Detection := Detection(0.95, Box(200.0, 200.0), [0.5])

  /**
   * The handler as written: register, Stop and Start again while the request
   * is in flight, and the reply leaves the second interval running with
   * `isScanning` false. Stop and Close then leave it running, and its next
   * accepted tick posts a second registration.
   */
  lemma StaleReplyLeaksInterval()
    ensures
      var s0 := Open(Initial(Str("42")), true, true);
      var s1 := Start(s0);
      var h1 := s1.detectionInterval.value;
      var t1 := Tick(s1, h1, true, [Face]);
      var s2 := Start(Stop(t1.0));
      var h2 := s2.detectionInterval.value;
      var s3 := OnReplyAsWritten(s2, s1.timers.live[h1], RegisterParsed);
      && t1.1 == Some(RegisterFace(Str("42"), [0.5]))
      && !s3.isScanning && h2 in s3.timers.live
      && !Inv(s3)
      && h2 in Stop(s3).timers.live
      && h2 in Close(s3).timers.live
      && Tick(s3, h2, true, [Face]).1 == Some(RegisterFace(Str("42"), [0.5]))
  {
    var s0 := Open(Initial(Str("42")), true, true);
    var s1 := Start(s0);
    assert s1.detectionInterval == Some(1) && s1.timers.live == map[1 := None];
    var t1 := Tick(s1, 1, true, [Face]);
    assert t1.0.timers.live == map[] && t1.0.isScanning;
    var s2 := Start(Stop(t1.0));
    assert s2.detectionInterval == Some(2) && s2.timers.live.Keys == {2};
    var s3 := OnReplyAsWritten(s2, None, RegisterParsed);
    assert 2 in s3.timers.live && !s3.isScanning;
  }
}

=== FILE: face_verification.dfy ===
/**
 * The face-verification modal: scan the camera until a detection passes the
 * quality gate, search the group's stored faces with its descriptor, and on a
 * match register the matched student's attendance.
 *
 * Each handler is a pure transition on the modal's state. A detection tick is
 * atomic. The `detectionInterval` value that `verifyFaceStudent` reads is the
 * one its closure captured when scanning started, which the timer table
 * records per interval.
 */
module FaceVerification {
  import opened Common
  import opened FaceCapture
  import opened Attendance

  /** `verificationStatus` ('quality_error' is rendered but never assigned). */
  datatype VerifyStatus = VerifySuccess | VerifyError

  /** `attendanceStatus` ('already_registered' is rendered but never assigned). */
  datatype AttendanceStatus = Registered | DontRecognize | AttendanceError

  datatype Session = Session(
    groupId: string,
    isOpen: bool,
    modelsLoaded: bool,
    tracksLive: bool,
    isScanning: bool,
    detectionInterval: Option<Handle>,
    openedWith: Option<Handle>,
    timers: Timers<Option<Handle>>,
    verifiedStudent: Option<StudentProfile>,
    status: Option<VerifyStatus>,
    attendance: Option<AttendanceStatus>,
    feedback: Feedback,
    submissions: nat)

  /** The modal as first rendered for the group in the route. */
  function Initial(groupId: string): (s: Session)
    ensures Inv(s) && !s.isScanning && s.submissions == 0
  {
    Session(groupId, false, false, false, false, None, None, NoTimers, None, None, None, InitialFeedback, 0)
  }

  /** Reply of `POST /searchFaceStudent`: a failed fetch or parse, or the parsed body (`None` when falsy). */
  datatype SearchReply = SearchFailed | SearchParsed(body: Option<StudentProfile>)

  /**
   * Timers run only while scanning, and then only the one the state holds.
   * Every transition below keeps this (lemma `InvPreserved`).
   */
  ghost predicate Inv(s: Session) {
    && FreshAbove(s.timers)
    && (s.isScanning ==> s.detectionInterval.Some? && s.timers.live.Keys <= {s.detectionInterval.value})
    && (!s.isScanning ==> s.timers.live == map[])
  }

  /** Opening the modal: the camera stream and the face models are requested; both outcomes are inputs. */
  function Open(s: Session, cameraGranted: bool, modelsReady: bool): (r: Session)
    ensures r.isOpen && r.openedWith == s.detectionInterval
    ensures r.tracksLive == (s.tracksLive || cameraGranted)
    ensures r.modelsLoaded == (s.modelsLoaded || modelsReady)
    ensures r.timers == s.timers && r.isScanning == s.isScanning
  {
    s.(isOpen := true, openedWith := s.detectionInterval,
       tracksLive := s.tracksLive || cameraGranted, modelsLoaded := s.modelsLoaded || modelsReady)
  }

  /** `startScanningVerify`. */
  function Start(s: Session): (r: Session)
    requires Inv(s)
    ensures s.isScanning || !s.modelsLoaded ==> r == s
    ensures !s.isScanning && s.modelsLoaded ==>
      && r.isScanning && r.status == None
      && r.feedback.status == None && r.feedback.error == None
      && r.detectionInterval.Some? && r.timers.live.Keys == {r.detectionInterval.value}
      && r.timers.live[r.detectionInterval.value] == s.detectionInterval
      && r.verifiedStudent == s.verifiedStudent && r.attendance == s.attendance
      && r.submissions == s.submissions
  {
    if !s.isScanning && s.modelsLoaded then
      var (t, h) := Schedule(s.timers, s.detectionInterval);
      s.(isScanning := true, status := None,
         feedback := s.feedback.(status := None, error := None),
         detectionInterval := Some(h), timers := t)
    else s
  }

  /** `verifyFaceStudent` as called from the tick whose closure captured `captured`. */
  function Submit(s: Session, captured: Option<Handle>, descriptor: Embedding): (r: (Session, FaceRequest))
    requires FreshAbove(s.timers)
    ensures FreshAbove(r.0.timers)
    ensures !r.0.isScanning && r.0.submissions == s.submissions + 1
    ensures r.0.timers.live.Keys <= s.timers.live.Keys
    ensures r.1 == SearchInGroup(s.groupId, descriptor, 20)
  {
    var s1 := s.(isScanning := false, submissions := s.submissions + 1);
    var s2 := if captured.Some? then s1.(timers := Cancel(s1.timers, captured.value), detectionInterval := None) else s1;
    (s2, SearchInGroup(s.groupId, descriptor, SearchTopK))
  }

  /**
   * One firing of interval `h` with the face library's `detections`;
   * `ready` is the video-element guard at the top of the callback.
   */
  function Tick(s: Session, h: Handle, ready: bool, detections: seq<Detection>): (r: (Session, Option<FaceRequest>))
    requires FreshAbove(s.timers)
    ensures FreshAbove(r.0.timers)
    ensures r.1.Some? <==> h in s.timers.live && ready && Evaluate(FirstDetection(detections)) == Accepted
    ensures r.1.Some? ==>
      && r.1.value == SearchInGroup(s.groupId, detections[0].descriptor, 20)
      && h !in r.0.timers.live && !r.0.isScanning
      && r.0.submissions == s.submissions + 1
      && r.0.feedback.status == Some(Good)
    ensures r.1.None? ==>
      && r.0.timers == s.timers && r.0.isScanning == s.isScanning
      && r.0.submissions == s.submissions && r.0.status == s.status
    ensures h in s.timers.live && ready ==> r.0.feedback == TickFeedback(FirstDetection(detections))
  {
    if h !in s.timers.live || !ready then (s, None)
    else
      var d := FirstDetection(detections);
      var s1 := s.(feedback := TickFeedback(d));
      if Evaluate(d) == Accepted then
        var (s2, req) := Submit(s1.(timers := Cancel(s1.timers, h)), s.timers.live[h], d.value.descriptor);
        (s2, Some(req))
      else (s1, None)
  }

  /** `stopScanning`: acts only while scanning with a held interval. */
  function Stop(s: Session): (r: Session)
    requires FreshAbove(s.timers)
    ensures FreshAbove(r.timers)
    ensures !(s.isScanning && s.detectionInterval.Some?) ==> r == s
    ensures s.isScanning && s.detectionInterval.Some? ==>
      && !r.isScanning && r.detectionInterval == None
      && r.timers.live.Keys == s.timers.live.Keys - {s.detectionInterval.value}
    ensures r == s.(timers := r.timers, detectionInterval := r.detectionInterval, isScanning := r.isScanning)
    ensures r.timers.next == s.timers.next
    ensures forall g :: g in r.timers.live ==> r.timers.live[g] == s.timers.live[g]
    ensures r.status == s.status && r.submissions == s.submissions
  {
    if s.isScanning && s.detectionInterval.Some? then
      s.(timers := Cancel(s.timers, s.detectionInterval.value), detectionInterval := None, isScanning := false)
    else s
  }

  /** Search reply: attendance is requested only for a body with a truthy `id`. */
  function OnSearchReply(s: Session, reply: SearchReply): (r: (Session, Option<AttendanceRequest>))
    ensures r.1.Some? <==> reply.SearchParsed? && reply.body.Some? && Truthy(reply.body.value.id)
    ensures r.1.Some? ==>
      && r.1.value == AttendanceBody(reply.body.value)
      && r.0.status == Some(VerifySuccess) && r.0.verifiedStudent == reply.body
      && r.0.attendance == s.attendance
    ensures r.1.None? ==>
      r.0.status == Some(VerifyError) && r.0.verifiedStudent == None && r.0.attendance == None
    ensures r.0.timers == s.timers && r.0.isScanning == s.isScanning && r.0.submissions == s.submissions
  {
    match reply
    case SearchParsed(Some(p)) =>
      if Truthy(p.id) then
        (s.(verifiedStudent := Some(p), status := Some(VerifySuccess)), Some(AttendanceBody(p)))
      else
        (s.(verifiedStudent := None, status := Some(VerifyError), attendance := None), None)
    case _ =>
      (s.(verifiedStudent := None, status := Some(VerifyError), attendance := None), None)
  }

  /** Attendance reply: registered only for `response === true`. */
  function OnAttendanceReply(s: Session, reply: AttendanceReply): (r: Session)
    ensures r.attendance == Some(Registered) <==> Confirmed(reply)
    ensures r.attendance == Some(AttendanceError) <==> reply.AttendanceFailed?
    ensures r.attendance == Some(DontRecognize) <==> reply.AttendanceParsed? && !Confirmed(reply)
    ensures r == s.(attendance := r.attendance)
  {
    match reply
    case AttendanceFailed => s.(attendance := Some(AttendanceError))
    case AttendanceParsed(response, _) =>
      if response == Bool(true) then s.(attendance := Some(Registered))
      else s.(attendance := Some(DontRecognize))
  }

  /** `continueVerification`: every result field back to its initial value. */
  function Continue(s: Session): (r: Session)
    ensures r.verifiedStudent == None && r.status == None && r.attendance == None
    ensures r.feedback == Feedback(None, None, 0.0, Box(0.0, 0.0))
    ensures r.timers == s.timers && r.isScanning == s.isScanning && r.tracksLive == s.tracksLive
  {
    s.(verifiedStudent := None, status := None, attendance := None, feedback := InitialFeedback)
  }

  /**
   * `handleClose`: stop scanning, stop the camera tracks, reset the results,
   * then `onClose` closes the modal, whose effect clean-up clears the
   * interval captured when the modal opened.
   */
  function Close(s: Session): (r: Session)
    requires FreshAbove(s.timers)
    ensures FreshAbove(r.timers)
    ensures !r.tracksLive && !r.isOpen
    ensures r.verifiedStudent == None && r.status == None && r.attendance == None
    ensures r.feedback == InitialFeedback
    ensures r.submissions == s.submissions
  {
    var s1 := Stop(s);
    s1.(tracksLive := false, verifiedStudent := None, status := None, attendance := None,
        feedback := InitialFeedback, isOpen := false, timers := CancelHeld(s1.timers, s.openedWith))
  }

  /** Everything that can happen to the modal. */
  datatype Event =
    | OpenEv(cameraGranted: bool, modelsReady: bool)
    | StartEv
    | TickEv(h: Handle, ready: bool, detections: seq<Detection>)
    | StopEv
    | SearchReplyEv(reply: SearchReply)
    | AttendanceReplyEv(areply: AttendanceReply)
    | ContinueEv
    | CloseEv

  function Apply(s: Session, e: Event): (r: Session)
    requires Inv(s)
  {
    match e
    case OpenEv(c, m) => Open(s, c, m)
    case StartEv => Start(s)
    case TickEv(h, ready, ds) => Tick(s, h, ready, ds).0
    case StopEv => Stop(s)
    case SearchReplyEv(rep) => OnSearchReply(s, rep).0
    case AttendanceReplyEv(rep) => OnAttendanceReply(s, rep)
    case ContinueEv => Continue(s)
    case CloseEv => Close(s)
  }

  /** No transition lets a detection interval run outside a scan, or two run at once. */
  lemma InvPreserved(s: Session, e: Event)
    requires Inv(s)
    ensures Inv(Apply(s, e))
  {
    match e
    case TickEv(h, ready, ds) =>
      if h in s.timers.live && ready && Evaluate(FirstDetection(ds)) == Accepted {
        assert s.isScanning;
        assert h == s.detectionInterval.value;
      }
    case StopEv =>
    case CloseEv =>
    case _ =>
  }

  /** Outside a scan no tick can submit: a scan submits at most one search. */
  lemma NoSubmissionOutsideScan(s: Session, h: Handle, ready: bool, ds: seq<Detection>)
    requires Inv(s) && !s.isScanning
    ensures Tick(s, h, ready, ds).1 == None
  {
  }

  /** After closing, no camera track and no detection interval is left running. */
  lemma CloseReleasesEverything(s: Session)
    requires Inv(s)
    ensures !Close(s).tracksLive && !Close(s).isScanning && Close(s).timers.live == map[]
  {
  }

  /** A rejected or empty tick never submits and leaves the scan running. */
  lemma RejectedTickKeepsScanning(s: Session, h: Handle, ds: seq<Detection>)
    requires Inv(s) && s.isScanning && h in s.timers.live
    requires Evaluate(FirstDetection(ds)) != Accepted
    ensures Tick(s, h, true, ds).1 == None
    ensures Tick(s, h, true, ds).0.isScanning
    ensures h in Tick(s, h, true, ds).0.timers.live
  {
  }
}

=== FILE: grades.dfy ===
/**
 * Grade rows as the two performance charts receive them from
 * `getAllStudentsGrades`, and the validity filter and sum both apply.
 */
module Grades {
  import opened Common

  /**
   * One grade row. A numeric field is `None` when it is null, undefined, the
   * empty string or does not parse as a number; otherwise it holds the parsed value.
   */
  datatype Grade = Grade(taskName: Option<string>, finalGrade: Option<real>, taskRate: Option<real>)

  /** A grade that has a usable `final_grade`. */
  predicate IsValid(g: Grade) {
    g.finalGrade.Some?
  }

  predicate NoneValid(gs: seq<Grade>) {
    forall i :: 0 <= i < |gs| ==> !IsValid(gs[i])
  }

  /** The parsed `final_grade` values of the valid rows, in row order. */
  function ValidValues(gs: seq<Grade>): (vs: seq<real>)
    ensures |vs| <= |gs|
    ensures |vs| == 0 <==> NoneValid(gs)
    ensures forall i :: 0 <= i < |gs| && IsValid(gs[i]) ==> gs[i].finalGrade.value in vs
  {
    if |gs| == 0 then []
    else
      var rest := ValidValues(gs[1..]);
      assert forall i :: 1 <= i < |gs| ==> gs[i] == gs[1..][i - 1];
      if IsValid(gs[0]) then [gs[0].finalGrade.value] + rest else rest
  }

  /** Filtering distributes over concatenation of row lists. */
  lemma {:induction false} ValidValuesAppend(a: seq<Grade>, b: seq<Grade>)
    ensures ValidValues(a + b) == ValidValues(a) + ValidValues(b)
  {
    if |a| == 0 {
      assert a + b == b;
    } else {
      assert (a + b)[1..] == a[1..] + b;
      ValidValuesAppend(a[1..], b);
    }
  }

  /** Every kept value comes from some valid row. */
  lemma {:induction false} ValidValuesFromRows(gs: seq<Grade>, v: real)
    requires v in ValidValues(gs)
    ensures exists i :: 0 <= i < |gs| && gs[i].finalGrade == Some(v)
  {
    if IsValid(gs[0]) && v == gs[0].finalGrade.value {
    } else {
      ValidValuesFromRows(gs[1..], v);
      var i :| 0 <= i < |gs[1..]| && gs[1..][i].finalGrade == Some(v);
      assert gs[i + 1].finalGrade == Some(v);
    }
  }

  function Sum(xs: seq<real>): real {
    if |xs| == 0 then 0.0 else xs[0] + Sum(xs[1..])
  }

  lemma {:induction false} SumAppend(a: seq<real>, b: seq<real>)
    ensures Sum(a + b) == Sum(a) + Sum(b)
  {
    if |a| == 0 {
      assert a + b == b;
    } else {
      assert (a + b)[1..] == a[1..] + b;
      SumAppend(a[1..], b);
    }
  }

  /** A sum of values that each lie in `[lo, hi]` lies in `[n*lo, n*hi]`. */
  lemma {:induction false} SumBounds(xs: seq<real>, lo: real, hi: real)
    requires forall i :: 0 <= i < |xs| ==> lo <= xs[i] <= hi
    ensures |xs| as real * lo <= Sum(xs) <= |xs| as real * hi
  {
    if |xs| > 0 {
      SumBounds(xs[1..], lo, hi);
    }
  }
}

=== FILE: group_links.dfy ===
/**
 * The public grade links page: generating a link for a group, deleting a
 * link, the address a link opens, the date cells and the group label of the
 * selector.
 */
module GroupLinks {
  import opened Common

  /** A link as `GET /getGroupLinks` lists it; the dates are `createdAt` and `lastAccessedAt`. */
  datatype Link = Link(id: JsValue, hash: string, groupName: JsValue, createdAt: JsValue, lastAccessedAt: JsValue)

  /** A group of the selector (`GET /getClassrooms`); the template fields are taken as text. */
  datatype LinkGroup = LinkGroup(id: JsValue, nombre: JsValue, grado: string, grupo: string, especialidad: string)

  /**
   * The page state the two handlers touch. `error` is `Null` when no error
   * is shown; `selected` is `None` for `selectedGroup === null`.
   */
  datatype LinksPage = LinksPage(
    links: seq<Link>,
    showModal: bool,
    selected: Option<LinkGroup>,
    generating: bool,
    showDeleteModal: bool,
    error: JsValue)

  /** How `POST /generateGroupLink` ended: it threw, or answered `{success, link, error}`. */
  datatype GenerateReply = GenerateThrew | GenerateReplied(success: JsValue, link: Link, error: JsValue)

  /** What `handleGenerateLink` did: the `groupId` it posted, if any, and the page afterwards. */
  datatype GenerateOutcome = GenerateOutcome(request: Option<JsValue>, page: LinksPage)

  const GenerateFailed: string := "Error al generar enlace"
  const GenerateThrown: string := "Error al generar enlace. Intenta nuevamente."

  /**
   * `handleGenerateLink`. Without a selected group nothing happens. A
   * successful reply puts the new link first, closes the modal and clears the
   * selection; any other outcome keeps the list and shows an error.
   */
  function GenerateLink(p: LinksPage, reply: GenerateReply): (o: GenerateOutcome)
    ensures p.selected.None? ==> o.request.None? && o.page == p
    ensures p.selected.Some? ==> o.request == Some(p.selected.value.id) && !o.page.generating
    ensures p.selected.Some? && reply.GenerateReplied? && Truthy(reply.success) ==>
      && o.page.links == [reply.link] + p.links
      && !o.page.showModal && o.page.selected.None? && o.page.error == Null
    ensures p.selected.Some? && !(reply.GenerateReplied? && Truthy(reply.success)) ==>
      && o.page.links == p.links
      && o.page.showModal == p.showModal && o.page.selected == p.selected
      && Truthy(o.page.error)
      && (reply.GenerateThrew? ==> o.page.error == Str(GenerateThrown))
      && (reply.GenerateReplied? && Truthy(reply.error) ==> o.page.error == reply.error)
      && (reply.GenerateReplied? && !Truthy(reply.error) ==> o.page.error == Str(GenerateFailed))
    ensures o.page.showDeleteModal == p.showDeleteModal
  {
    match p.selected
    case None => GenerateOutcome(None, p)
    case Some(g) =>
      var pending := p.(generating := true, error := Null);
      var settled :=
        match reply
        case GenerateThrew => pending.(error := Str(GenerateThrown))
        case GenerateReplied(success, link, error) =>
          if Truthy(success) then pending.(links := [link] + p.links, showModal := false, selected := None)
          else pending.(error := Or(error, Str(GenerateFailed)));
      GenerateOutcome(Some(g.id), settled.(generating := false))
  }

  /** `links.filter(link => link.id !== linkId)`. */
  function Remove(links: seq<Link>, linkId: JsValue): (r: seq<Link>)
    ensures |r| <= |links|
    ensures forall k :: 0 <= k < |r| ==> !StrictEq(r[k].id, linkId) && r[k] in links
    ensures forall i :: 0 <= i < |links| && !StrictEq(links[i].id, linkId) ==> links[i] in r
  {
    if |links| == 0 then []
    else
      var rest := Remove(links[1..], linkId);
      assert forall i :: 1 <= i < |links| ==> links[i] == links[1..][i - 1];
      if StrictEq(links[0].id, linkId) then rest else [links[0]] + rest
  }

  /** Removing distributes over concatenation: the links that stay keep their order. */
  lemma {:induction false} RemoveAppend(a: seq<Link>, b: seq<Link>, linkId: JsValue)
    ensures Remove(a + b, linkId) == Remove(a, linkId) + Remove(b, linkId)
  {
    if |a| == 0 {
      assert a + b == b;
    } else {
      assert (a + b)[1..] == a[1..] + b;
      RemoveAppend(a[1..], b, linkId);
    }
  }

  /** A list without the id is left exactly as it is. */
  lemma {:induction false} RemoveAbsent(links: seq<Link>, linkId: JsValue)
    requires forall i :: 0 <= i < |links| ==> !StrictEq(links[i].id, linkId)
    ensures Remove(links, linkId) == links
  {
    if |links| > 0 {
      RemoveAbsent(links[1..], linkId);
    }
  }

  /** How `DELETE /deleteGroupLink/<id>` ended. */
  datatype DeleteReply = DeleteThrew | DeleteReplied(success: JsValue, error: JsValue)

  const DeleteFailed: string := "Error al eliminar enlace"
  const DeleteThrown: string := "Error al eliminar enlace. Intenta nuevamente."

  /**
   * `handleDeleteLink`: a successful reply drops the links with that id and
   * closes the confirmation; any other outcome keeps the list and shows an
   * error.
   */
  function DeleteLink(p: LinksPage, linkId: JsValue, reply: DeleteReply): (r: LinksPage)
    ensures r.showModal == p.showModal && r.selected == p.selected && r.generating == p.generating
    ensures reply.DeleteReplied? && Truthy(reply.success) ==>
      r.links == Remove(p.links, linkId) && !r.showDeleteModal && r.error == Null
    ensures !(reply.DeleteReplied? && Truthy(reply.success)) ==>
      && r.links == p.links && r.showDeleteModal == p.showDeleteModal
      && Truthy(r.error)
      && (reply.DeleteThrew? ==> r.error == Str(DeleteThrown))
      && (reply.DeleteReplied? && Truthy(reply.error) ==> r.error == reply.error)
      && (reply.DeleteReplied? && !Truthy(reply.error) ==> r.error == Str(DeleteFailed))
  {
    var pending := p.(error := Null);
    match reply
    case DeleteThrew => pending.(error := Str(DeleteThrown))
    case DeleteReplied(success, error) =>
      if Truthy(success) then pending.(links := Remove(p.links, linkId), showDeleteModal := false)
      else pending.(error := Or(error, Str(DeleteFailed)))
  }

  /**
   * Generating a link with a fresh id and then deleting that id gives the
   * original list back.
   */
  lemma GenerateThenDelete(p: LinksPage, link: Link, error: JsValue, deleteError: JsValue)
    requires p.selected.Some? && !link.id.Obj?
    requires forall i :: 0 <= i < |p.links| ==> !StrictEq(p.links[i].id, link.id)
    ensures var generated := GenerateLink(p, GenerateReplied(Bool(true), link, error)).page;
      DeleteLink(generated, link.id, DeleteReplied(Bool(true), deleteError)).links == p.links
  {
    RemoveAppend([link], p.links, link.id);
    RemoveAbsent(p.links, link.id);
  }

  const GradesRoute: string := "/#/grades/"

  /** `openLink`'s address: the page's origin, the public grades route, the hash. */
  function OpenLink(origin: string, hash: string): (url: string)
    ensures |url| == |origin| + |GradesRoute| + |hash|
    ensures url[..|origin|] == origin && url[|origin|..|origin| + |GradesRoute|] == GradesRoute
    ensures url[|origin| + |GradesRoute|..] == hash
  {
    origin + GradesRoute + hash
  }

  /** The hash a public address under `origin` carries, if it is one. */
  function HashOf(url: string, origin: string): (h: Option<string>)
    ensures h.Some? <==> |origin| + |GradesRoute| <= |url| && url[..|origin| + |GradesRoute|] == origin + GradesRoute
    ensures h.Some? ==> |h.value| == |url| - |origin| - |GradesRoute|
  {
    var n := |origin| + |GradesRoute|;
    if n <= |url| && url[..n] == origin + GradesRoute then Some(url[n..]) else None
  }

  /** An opened address gives back its hash, and every public address is one `openLink` builds. */
  lemma OpenLinkRoundTrip(origin: string, hash: string, url: string)
    ensures HashOf(OpenLink(origin, hash), origin) == Some(hash)
    ensures HashOf(url, origin).Some? ==> OpenLink(origin, HashOf(url, origin).value) == url
  {
    var u := OpenLink(origin, hash);
    assert u[..|origin| + |GradesRoute|] == origin + GradesRoute;
    if HashOf(url, origin).Some? {
      var n := |origin| + |GradesRoute|;
      assert url == url[..n] + url[n..];
    }
  }

  /**
   * `formatDate`: an empty or absent date reads "Nunca"; any other is
   * rendered by `toLocaleDateString`, which is a parameter here.
   */
  function FormatDate(date: JsValue, render: JsValue -> string): (s: string)
    ensures !Truthy(date) ==> s == "Nunca"
    ensures Truthy(date) ==> s == render(date)
  {
    if !Truthy(date) then "Nunca" else render(date)
  }

  /** The selector's label: the group's own name, else "grado° grupo - especialidad". */
  function GroupLabel(g: LinkGroup): (l: JsValue)
    ensures Truthy(l)
    ensures Truthy(g.nombre) ==> l == g.nombre
    ensures !Truthy(g.nombre) ==> l == Str(g.grado + "\U{00B0} " + g.grupo + " - " + g.especialidad)
  {
    Or(g.nombre, Str(g.grado + "\U{00B0} " + g.grupo + " - " + g.especialidad))
  }
}

=== FILE: grupo.dfy ===
/**
 * The group page: de-duplicating the student search results, the local task
 * list updates that follow a rename, a rate change or a delete, and the input
 * guards in front of its requests.
 */
module Grupo {
  import opened Common

  /** A student row as the search endpoint returns it (the fields the page reads). */
  datatype Student = Student(id: JsValue, nombre: string, apellidos: string, grado: string, grupo: string)

  /** The de-duplication key: the four fields joined with hyphens, as one string. */
  function Key(s: Student): string {
    s.apellidos + "-" + s.nombre + "-" + s.grado + "-" + s.grupo
  }

  ghost function KeySet(xs: seq<Student>): set<string> {
    set i | 0 <= i < |xs| :: Key(xs[i])
  }

  /** No earlier row has the key of row `i`. */
  predicate FirstOfKey(xs: seq<Student>, i: int)
    requires 0 <= i < |xs|
  {
    forall j :: 0 <= j < i ==> Key(xs[j]) != Key(xs[i])
  }

  lemma KeySetSnoc(xs: seq<Student>, x: Student)
    ensures KeySet(xs + [x]) == KeySet(xs) + {Key(x)}
  {
    var ys := xs + [x];
    assert forall i :: 0 <= i < |xs| ==> ys[i] == xs[i];
    assert ys[|xs|] == x;
  }

  /**
   * The first row of every key, in input order: the reference the loop in
   * `RemoveDuplicates` is checked against.
   */
  function FirstOccurrences(xs: seq<Student>): (r: seq<Student>)
    ensures forall a, b :: 0 <= a < b < |r| ==> Key(r[a]) != Key(r[b])
    ensures KeySet(r) == KeySet(xs)
    ensures forall k :: 0 <= k < |r| ==> r[k] in xs
    ensures |r| <= |xs|
  {
    if |xs| == 0 then []
    else
      var init := xs[..|xs| - 1];
      var last := xs[|xs| - 1];
      var r0 := FirstOccurrences(init);
      assert xs == init + [last];
      KeySetSnoc(init, last);
      if FirstOfKey(xs, |xs| - 1) then
        FirstKeyIsNew(init, last);
        AppendNewKey(r0, last);
        r0 + [last]
      else
        r0
  }

  /** A row whose key no earlier row has brings a key not seen before. */
  lemma FirstKeyIsNew(init: seq<Student>, last: Student)
    requires FirstOfKey(init + [last], |init|)
    ensures Key(last) !in KeySet(init)
  {
    forall j | 0 <= j < |init|
      ensures Key(init[j]) != Key(last)
    {
      assert (init + [last])[j] == init[j];
    }
  }

  /** Appending a row with a new key keeps the keys distinct. */
  lemma AppendNewKey(r0: seq<Student>, last: Student)
    requires forall a, b :: 0 <= a < b < |r0| ==> Key(r0[a]) != Key(r0[b])
    requires Key(last) !in KeySet(r0)
    ensures var r := r0 + [last];
      (forall a, b :: 0 <= a < b < |r| ==> Key(r[a]) != Key(r[b])) && KeySet(r) == KeySet(r0) + {Key(last)}
  {
    var r := r0 + [last];
    KeySetSnoc(r0, last);
    forall a, b | 0 <= a < b < |r|
      ensures Key(r[a]) != Key(r[b])
    {
      if b == |r0| {
        assert r[a] == r0[a];
        assert Key(r0[a]) in KeySet(r0);
      }
    }
  }

  /**
   * `removeDuplicates`: `None` stands for a reply that is not an array. A
   * `Map` keyed by `Key` keeps the first row of each key in insertion order.
   */
  method RemoveDuplicates(data: Option<seq<Student>>) returns (r: seq<Student>)
    ensures data.None? ==> r == []
    ensures data.Some? ==> r == FirstOccurrences(data.value)
    ensures data.Some? ==> KeySet(r) == KeySet(data.value)
    ensures forall a, b :: 0 <= a < b < |r| ==> Key(r[a]) != Key(r[b])
  {
    if data.None? {
      return [];
    }
    var xs := data.value;
    var seen: set<string> := {};
    r := [];
    var i := 0;
    while i < |xs|
      invariant 0 <= i <= |xs|
      invariant r == FirstOccurrences(xs[..i])
      invariant seen == KeySet(xs[..i])
    {
      assert xs[..i + 1] == xs[..i] + [xs[i]];
      assert xs[..i + 1][..i] == xs[..i];
      KeySetSnoc(xs[..i], xs[i]);
      assert FirstOfKey(xs[..i + 1], i) <==> Key(xs[i]) !in seen by {
        if Key(xs[i]) in seen {
          var j :| 0 <= j < i && Key(xs[..i][j]) == Key(xs[i]);
          assert Key(xs[..i + 1][j]) == Key(xs[..i + 1][i]);
        }
      }
      if Key(xs[i]) !in seen {
        r := r + [xs[i]];
        seen := seen + {Key(xs[i])};
      }
      i := i + 1;
    }
    assert xs[..|xs|] == xs;
  }

  /** Two different students whose keys run together: the second is dropped. */
  lemma KeyCollision()
    ensures var a := Student(Num(1.0), "x-b", "a", "1", "A");
      var b := Student(Num(2.0), "b", "a-x", "1", "A");
      a != b && Key(a) == Key(b) && FirstOccurrences([a, b]) == [a]
  {
    var a := Student(Num(1.0), "x-b", "a", "1", "A");
    var b := Student(Num(2.0), "b", "a-x", "1", "A");
    assert [a, b][..1] == [a];
    assert [a][..0] == [];
  }

  /** A task row; `name` and `nombre` are the two spellings the endpoints use. */
  datatype Task = Task(id: JsValue, name: JsValue, nombre: JsValue, rate: JsValue)

  /** `getTasksGroup`'s normalisation: `name` falls back to `nombre`. */
  function NormaliseTasks(tasks: seq<Task>): (r: seq<Task>)
    ensures |r| == |tasks|
    ensures forall i :: 0 <= i < |r| ==>
      && r[i].id == tasks[i].id && r[i].nombre == tasks[i].nombre && r[i].rate == tasks[i].rate
      && (Truthy(r[i].name) <==> Truthy(tasks[i].name) || Truthy(tasks[i].nombre))
      && (Truthy(tasks[i].name) ==> r[i].name == tasks[i].name)
      && (!Truthy(tasks[i].name) ==> r[i].name == tasks[i].nombre)
  {
    seq(|tasks|, i requires 0 <= i < |tasks| => tasks[i].(name := Or(tasks[i].name, tasks[i].nombre)))
  }

  /** Normalising twice changes nothing more. */
  lemma NormaliseIdempotent(tasks: seq<Task>)
    ensures NormaliseTasks(NormaliseTasks(tasks)) == NormaliseTasks(tasks)
  {
  }

  /** The local update after a rename: the tasks whose id is `=== id` get the new name. */
  function Rename(tasks: seq<Task>, id: JsValue, newName: JsValue): (r: seq<Task>)
    ensures |r| == |tasks|
    ensures forall i :: 0 <= i < |r| && StrictEq(tasks[i].id, id) ==> r[i] == tasks[i].(name := newName)
    ensures forall i :: 0 <= i < |r| && !StrictEq(tasks[i].id, id) ==> r[i] == tasks[i]
  {
    seq(|tasks|, i requires 0 <= i < |tasks| => if StrictEq(tasks[i].id, id) then tasks[i].(name := newName) else tasks[i])
  }

  /** `changeNameTask`: the list is updated once the request settles, unless it throws. */
  function ChangeNameTask(tasks: seq<Task>, id: JsValue, newName: JsValue, threw: bool): (r: seq<Task>)
    ensures threw ==> r == tasks
    ensures !threw ==> r == Rename(tasks, id, newName)
  {
    if threw then tasks else Rename(tasks, id, newName)
  }

  /**
   * `handleNameKeyDown` on Enter: `changeNameTask` is started without being
   * awaited, and the row's task object is then given the new name in place.
   * The request's outcome only decides whether the list is mapped afterwards,
   * so the new name is shown even when the request throws.
   */
  function ChangeNameByEnter(tasks: seq<Task>, k: int, newName: JsValue, threw: bool): (r: seq<Task>)
    requires 0 <= k < |tasks|
    ensures |r| == |tasks|
    ensures r[k] == tasks[k].(name := newName)
    ensures threw ==> forall i :: 0 <= i < |r| && i != k ==> r[i] == tasks[i]
    ensures !threw ==> forall i :: 0 <= i < |r| && i != k ==>
      r[i] == (if StrictEq(tasks[i].id, tasks[k].id) then tasks[i].(name := newName) else tasks[i])
  {
    var mutated := tasks[k := tasks[k].(name := newName)];
    ChangeNameTask(mutated, tasks[k].id, newName, threw)
  }

  /**
   * The Enter key and the check button agree when the request settles, but
   * when it throws only the check button leaves the name as it was.
   */
  lemma EnterVersusButton(tasks: seq<Task>, k: int, newName: JsValue)
    requires 0 <= k < |tasks|
    ensures !tasks[k].id.Obj? ==>
      ChangeNameByEnter(tasks, k, newName, false) == ChangeNameTask(tasks, tasks[k].id, newName, false)
    ensures tasks[k].name != newName ==>
      ChangeNameByEnter(tasks, k, newName, true) != ChangeNameTask(tasks, tasks[k].id, newName, true)
  {
    if tasks[k].name != newName {
      assert ChangeNameByEnter(tasks, k, newName, true)[k] != tasks[k];
    }
  }

  /** Renaming is idempotent. */
  lemma RenameIdempotent(tasks: seq<Task>, id: JsValue, newName: JsValue)
    ensures Rename(Rename(tasks, id, newName), id, newName) == Rename(tasks, id, newName)
  {
  }

  /** The tasks whose id is not `=== id`, in order. */
  function Delete(tasks: seq<Task>, id: JsValue): (r: seq<Task>)
    ensures |r| <= |tasks|
    ensures forall k :: 0 <= k < |r| ==> !StrictEq(r[k].id, id) && r[k] in tasks
    ensures forall i :: 0 <= i < |tasks| && !StrictEq(tasks[i].id, id) ==> tasks[i] in r
  {
    if |tasks| == 0 then []
    else
      var rest := Delete(tasks[1..], id);
      assert forall i :: 1 <= i < |tasks| ==> tasks[i] == tasks[1..][i - 1];
      if StrictEq(tasks[0].id, id) then rest else [tasks[0]] + rest
  }

  /** Deleting distributes over concatenation, so the kept tasks stay in order. */
  lemma {:induction false} DeleteAppend(a: seq<Task>, b: seq<Task>, id: JsValue)
    ensures Delete(a + b, id) == Delete(a, id) + Delete(b, id)
  {
    if |a| == 0 {
      assert a + b == b;
    } else {
      assert (a + b)[1..] == a[1..] + b;
      DeleteAppend(a[1..], b, id);
    }
  }

  /** A list without the id is left as it is; deleting twice is deleting once. */
  lemma {:induction false} DeleteAbsent(tasks: seq<Task>, id: JsValue)
    requires forall i :: 0 <= i < |tasks| ==> !StrictEq(tasks[i].id, id)
    ensures Delete(tasks, id) == tasks
  {
    if |tasks| > 0 {
      DeleteAbsent(tasks[1..], id);
    }
  }

  lemma DeleteIdempotent(tasks: seq<Task>, id: JsValue)
    ensures Delete(Delete(tasks, id), id) == Delete(tasks, id)
  {
    var r := Delete(tasks, id);
    DeleteAbsent(r, id);
  }

  /** Renaming a task and then deleting it is the same as deleting it. */
  lemma {:induction false} DeleteAfterRename(tasks: seq<Task>, id: JsValue, newName: JsValue)
    ensures Delete(Rename(tasks, id, newName), id) == Delete(tasks, id)
  {
    if |tasks| > 0 {
      var rn := Rename(tasks, id, newName);
      assert rn[1..] == Rename(tasks[1..], id, newName);
      DeleteAfterRename(tasks[1..], id, newName);
    }
  }

  /** `deleteTask`: the list is filtered once the request settles, unless it throws. */
  function DeleteTask(tasks: seq<Task>, id: JsValue, threw: bool): (r: seq<Task>)
    ensures threw ==> r == tasks
    ensures !threw ==> r == Delete(tasks, id)
  {
    if threw then tasks else Delete(tasks, id)
  }

  /** `tasks.find(task => task.id === id)`. */
  function FindTask(tasks: seq<Task>, id: JsValue): (r: Option<Task>)
    ensures r.None? <==> forall i :: 0 <= i < |tasks| ==> !StrictEq(tasks[i].id, id)
    ensures r.Some? ==> exists i :: 0 <= i < |tasks| && tasks[i] == r.value && StrictEq(r.value.id, id)
    ensures r.Some? ==> exists i :: && 0 <= i < |tasks| && tasks[i] == r.value && StrictEq(tasks[i].id, id)
                                    && forall j :: 0 <= j < i ==> !StrictEq(tasks[j].id, id)
  {
    if |tasks| == 0 then None
    else if StrictEq(tasks[0].id, id) then Some(tasks[0])
    else
      assert forall i :: 1 <= i < |tasks| ==> tasks[i] == tasks[1..][i - 1];
      FindTask(tasks[1..], id)
  }

  /** Body of `PATCH /changeRateTaskGroup` (students and credentials left out). */
  datatype RateRequest = RateRequest(nameTask: JsValue, rate: JsValue, newRate: JsValue, idTask: JsValue)

  /** How the rate request ended. */
  datatype RateReply = RateOk | RateNotOk | RateThrew

  datatype RateOutcome = RateOutcome(tasks: seq<Task>, request: Option<RateRequest>, alerted: bool)

  /** The tasks whose id is `=== id` get the new rate. */
  function SetRate(tasks: seq<Task>, id: JsValue, newRate: JsValue): (r: seq<Task>)
    ensures |r| == |tasks|
    ensures forall i :: 0 <= i < |r| && StrictEq(tasks[i].id, id) ==> r[i] == tasks[i].(rate := newRate)
    ensures forall i :: 0 <= i < |r| && !StrictEq(tasks[i].id, id) ==> r[i] == tasks[i]
  {
    seq(|tasks|, i requires 0 <= i < |tasks| => if StrictEq(tasks[i].id, id) then tasks[i].(rate := newRate) else tasks[i])
  }

  /**
   * `changeRateTaskGroup`: an unknown id is refused before any request; a
   * request that is not ok or throws leaves the list and raises the alert.
   */
  function ChangeRateTaskGroup(tasks: seq<Task>, id: JsValue, newRate: JsValue, reply: RateReply): (o: RateOutcome)
    ensures o.request.None? <==> FindTask(tasks, id).None?
    ensures o.request.Some? ==>
      var t := FindTask(tasks, id).value;
      o.request.value == RateRequest(Or(t.name, t.nombre), t.rate, newRate, id)
    ensures o.alerted <==> o.request.None? || reply != RateOk
    ensures o.alerted ==> o.tasks == tasks
    ensures !o.alerted ==> o.tasks == SetRate(tasks, id, newRate)
  {
    match FindTask(tasks, id)
    case None => RateOutcome(tasks, None, true)
    case Some(t) =>
      var req := RateRequest(Or(t.name, t.nombre), t.rate, newRate, id);
      if reply == RateOk then RateOutcome(SetRate(tasks, id, newRate), Some(req), false)
      else RateOutcome(tasks, Some(req), true)
  }

  /** What a search box does with its query. */
  datatype SearchAction = ClearResults | Search(query: string)

  /** `fetchStudentResults` / `fetchGroupResults`: a blank query clears the results without a request. */
  function SearchFor(query: string): (a: SearchAction)
    ensures a.ClearResults? <==> IsBlank(query)
    ensures a.Search? ==> a.query == query
  {
    TrimEmptyIffBlank(query);
    if Trim(query) == "" then ClearResults else Search(query)
  }

  /** The add-student form and the group it is added to. */
  datatype StudentForm = StudentForm(nombre: string, apellidos: string, correo: string)
  datatype GroupInfo = GroupInfo(grado: JsValue, grupo: JsValue, especialidad: JsValue)

  datatype CreateStudentRequest = CreateStudentRequest(
    nombre: string, apellidos: string, correo: string, grupo: JsValue, grado: JsValue, especialidad: JsValue,
    groupId: JsValue)

  const IncompleteStudent: string := "Por favor complete todos los campos"

  /** `addStudentDB`: every form field must be non-empty; the group fields and the route's `id` come from the page. */
  function AddStudent(form: StudentForm, group: GroupInfo, groupId: JsValue): (r: Result<CreateStudentRequest>)
    ensures r.Failure? <==> form.nombre == "" || form.apellidos == "" || form.correo == ""
    ensures r.Failure? ==> r.error == "Por favor complete todos los campos"
    ensures r.Success? ==> r.value == CreateStudentRequest(form.nombre, form.apellidos, form.correo,
                                                          group.grupo, group.grado, group.especialidad, groupId)
  {
    if form.nombre == "" || form.apellidos == "" || form.correo == "" then Failure(IncompleteStudent)
    else Success(CreateStudentRequest(form.nombre, form.apellidos, form.correo, group.grupo, group.grado, group.especialidad, groupId))
  }

  /** `addTaskDB` posts only when the group has students (and silently does nothing otherwise). */
  function AddTaskAllowed(students: seq<Student>): (b: bool)
    ensures b <==> |students| > 0
  {
    |students| != 0
  }

  /** The edit-group form (`grade`, `group`, `area`). */
  datatype GroupForm = GroupForm(grade: JsValue, group: JsValue, area: JsValue)

  const MissingGroupFields: string := "Todos los campos son obligatorios"

  /** `editGroup`'s check: all three fields truthy; on success the page's group info becomes the form. */
  function EditGroup(form: GroupForm): (r: Result<GroupInfo>)
    ensures r.Failure? <==> !Truthy(form.grade) || !Truthy(form.group) || !Truthy(form.area)
    ensures r.Failure? ==> r.error == "Todos los campos son obligatorios"
    ensures r.Success? ==> r.value == GroupInfo(form.grade, form.group, form.area)
  {
    if !Truthy(form.grade) || !Truthy(form.group) || !Truthy(form.area) then Failure(MissingGroupFields)
    else Success(GroupInfo(form.grade, form.group, form.area))
  }

  /**
   * `updateStudent` sends only when no field of the form is the empty string.
   * In the page `setStudentData` is never called, so the form it reads is
   * always the initial one with three empty fields and nothing is ever sent;
   * `NeverSends` states that.
   */
  function UpdateStudent(form: StudentForm): (r: Option<StudentForm>)
    ensures r.Some? <==> form.nombre != "" && form.apellidos != "" && form.correo != ""
    ensures r.Some? ==> r.value == form
  {
    if form.nombre != "" && form.apellidos != "" && form.correo != "" then Some(form) else None
  }

  /** The two guards agree: a form `addStudentDB` accepts is one `updateStudent` sends. */
  lemma StudentGuardsAgree(form: StudentForm, group: GroupInfo, groupId: JsValue)
    ensures AddStudent(form, group, groupId).Success? <==> UpdateStudent(form).Some?
  {
  }

  /** The form `updateStudent` reads in the page: the initial one, never set. */
  const InitialStudentData: StudentForm := StudentForm("", "", "")

  /** With the form the page actually holds, `updateStudent` never sends a request. */
  lemma NeverSends()
    ensures UpdateStudent(InitialStudentData).None?
  {
  }
}

=== FILE: grupos.dfy ===
/**
 * The group list page: creating a group, and the three list-wide task updates
 * (rename, new rate, delete) that apply one task change to every group that
 * holds the task. In the page those three handlers are declared after the
 * component's `return`, so nothing calls them; they are modelled as written.
 */
module Grupos {
  import opened Common
  import Grupo

  /** A group as the page lists it; `tasks` is `None` when the row has no task array. */
  datatype GroupRow = GroupRow(grado: JsValue, grupo: JsValue, especialidad: JsValue, estudiantes: JsValue, id: JsValue, tasks: Option<seq<Grupo.Task>>)

  /** Every group with the renamed task, through `tasks?.map`. */
  function RenameAll(groups: seq<GroupRow>, id: JsValue, newName: JsValue): (r: seq<GroupRow>)
    ensures |r| == |groups|
    ensures forall i :: 0 <= i < |r| ==> r[i] == groups[i].(tasks := r[i].tasks)
    ensures forall i :: 0 <= i < |r| ==> (r[i].tasks.None? <==> groups[i].tasks.None?)
    ensures forall i :: 0 <= i < |r| && groups[i].tasks.Some? ==>
      |r[i].tasks.value| == |groups[i].tasks.value|
      && forall k :: 0 <= k < |r[i].tasks.value| ==>
           r[i].tasks.value[k] == (if StrictEq(groups[i].tasks.value[k].id, id) then groups[i].tasks.value[k].(name := newName) else groups[i].tasks.value[k])
  {
    seq(|groups|, i requires 0 <= i < |groups| =>
      groups[i].(tasks := if groups[i].tasks.Some? then Some(Grupo.Rename(groups[i].tasks.value, id, newName)) else None))
  }

  /** Every group with the task's new rate. */
  function SetRateAll(groups: seq<GroupRow>, id: JsValue, newRate: JsValue): (r: seq<GroupRow>)
    ensures |r| == |groups|
    ensures forall i :: 0 <= i < |r| ==> r[i] == groups[i].(tasks := r[i].tasks)
    ensures forall i :: 0 <= i < |r| ==> (r[i].tasks.None? <==> groups[i].tasks.None?)
    ensures forall i :: 0 <= i < |r| && groups[i].tasks.Some? ==>
      |r[i].tasks.value| == |groups[i].tasks.value|
      && forall k :: 0 <= k < |r[i].tasks.value| ==>
           r[i].tasks.value[k] == (if StrictEq(groups[i].tasks.value[k].id, id) then groups[i].tasks.value[k].(rate := newRate) else groups[i].tasks.value[k])
  {
    seq(|groups|, i requires 0 <= i < |groups| =>
      groups[i].(tasks := if groups[i].tasks.Some? then Some(Grupo.SetRate(groups[i].tasks.value, id, newRate)) else None))
  }

  /** Every group without the task, through `tasks?.filter`. */
  function DeleteAll(groups: seq<GroupRow>, id: JsValue): (r: seq<GroupRow>)
    ensures |r| == |groups|
    ensures forall i :: 0 <= i < |r| ==> r[i] == groups[i].(tasks := r[i].tasks)
    ensures forall i :: 0 <= i < |r| ==> (r[i].tasks.None? <==> groups[i].tasks.None?)
    ensures forall i :: 0 <= i < |r| && groups[i].tasks.Some? ==>
      |r[i].tasks.value| <= |groups[i].tasks.value|
      && (forall k :: 0 <= k < |r[i].tasks.value| ==> !StrictEq(r[i].tasks.value[k].id, id) && r[i].tasks.value[k] in groups[i].tasks.value)
      && (forall k :: 0 <= k < |groups[i].tasks.value| && !StrictEq(groups[i].tasks.value[k].id, id) ==> groups[i].tasks.value[k] in r[i].tasks.value)
  {
    seq(|groups|, i requires 0 <= i < |groups| =>
      groups[i].(tasks := if groups[i].tasks.Some? then Some(Grupo.Delete(groups[i].tasks.value, id)) else None))
  }

  /** The list-wide update is the one-group page's update, group by group. */
  lemma AgreesWithGroupPage(groups: seq<GroupRow>, id: JsValue, v: JsValue, i: int)
    requires 0 <= i < |groups| && groups[i].tasks.Some?
    ensures RenameAll(groups, id, v)[i].tasks == Some(Grupo.Rename(groups[i].tasks.value, id, v))
    ensures SetRateAll(groups, id, v)[i].tasks == Some(Grupo.SetRate(groups[i].tasks.value, id, v))
    ensures DeleteAll(groups, id)[i].tasks == Some(Grupo.Delete(groups[i].tasks.value, id))
  {
  }

  /** Deleting a task everywhere twice is deleting it once. */
  lemma DeleteAllIdempotent(groups: seq<GroupRow>, id: JsValue)
    ensures DeleteAll(DeleteAll(groups, id), id) == DeleteAll(groups, id)
  {
    var once := DeleteAll(groups, id);
    var twice := DeleteAll(once, id);
    forall i | 0 <= i < |groups|
      ensures twice[i] == once[i]
    {
      if groups[i].tasks.Some? {
        Grupo.DeleteIdempotent(groups[i].tasks.value, id);
      }
    }
  }

  /** Renaming a task everywhere and then deleting it is deleting it. */
  lemma DeleteAllAfterRenameAll(groups: seq<GroupRow>, id: JsValue, newName: JsValue)
    ensures DeleteAll(RenameAll(groups, id, newName), id) == DeleteAll(groups, id)
  {
    var a := DeleteAll(RenameAll(groups, id, newName), id);
    var b := DeleteAll(groups, id);
    forall i | 0 <= i < |groups|
      ensures a[i] == b[i]
    {
      if groups[i].tasks.Some? {
        Grupo.DeleteAfterRename(groups[i].tasks.value, id, newName);
      }
    }
  }

  /** The create form. */
  datatype NewGroup = NewGroup(grado: JsValue, grupo: JsValue, especialidad: JsValue)

  const BlankForm: NewGroup := NewGroup(Str(""), Str(""), Str(""))

  /** The page state `createGroup` touches. */
  datatype Page = Page(groups: seq<GroupRow>, showCreateModal: bool, form: NewGroup)

  /** How `POST /createClassroom` ended: it threw, or answered with `data[0]?.insertId`. */
  datatype CreateReply = CreateThrew | CreateReplied(insertId: JsValue)

  /** What `createGroup` did: the request it posted, if any, and the page after the reply. */
  datatype CreateOutcome = CreateOutcome(request: Option<NewGroup>, page: Page)

  predicate FormComplete(f: NewGroup) {
    Truthy(f.grado) && Truthy(f.grupo) && Truthy(f.especialidad)
  }

  /**
   * `createGroup`: nothing is posted unless the three fields are filled; a
   * truthy `insertId` appends the new group with no students, closes the
   * modal and clears the form; any other reply leaves the page as it was.
   */
  function CreateGroup(p: Page, reply: CreateReply): (o: CreateOutcome)
    ensures o.request.Some? <==> Truthy(p.form.grado) && Truthy(p.form.grupo) && Truthy(p.form.especialidad)
    ensures o.request.Some? ==> o.request.value == p.form
    ensures var created := o.request.Some? && reply.CreateReplied? && Truthy(reply.insertId);
      && (!created ==> o.page == p)
      && (created ==>
            && o.page.groups == p.groups + [GroupRow(p.form.grado, p.form.grupo, p.form.especialidad, Num(0.0), reply.insertId, None)]
            && !o.page.showCreateModal
            && o.page.form == NewGroup(Str(""), Str(""), Str("")))
  {
    if !FormComplete(p.form) then CreateOutcome(None, p)
    else if reply.CreateReplied? && Truthy(reply.insertId) then
      var row := GroupRow(p.form.grado, p.form.grupo, p.form.especialidad, Num(0.0), reply.insertId, None);
      CreateOutcome(Some(p.form), Page(p.groups + [row], false, BlankForm))
    else CreateOutcome(Some(p.form), p)
  }

  /** Once a group is created the cleared form posts nothing until it is filled again. */
  lemma CreatedFormBlocksRepeat(p: Page, reply: CreateReply, next: CreateReply)
    requires CreateGroup(p, reply).page != p
    ensures CreateGroup(CreateGroup(p, reply).page, next).request.None?
    ensures |CreateGroup(p, reply).page.groups| == |p.groups| + 1
  {
  }

  /** Creating a group never touches the groups already listed, nor their tasks. */
  lemma CreateKeepsExisting(p: Page, reply: CreateReply)
    ensures var gs := CreateGroup(p, reply).page.groups;
      |p.groups| <= |gs| <= |p.groups| + 1 && gs[..|p.groups|] == p.groups
  {
  }
}

=== FILE: home.dfy ===
/**
 * The dashboard: the greeting, the insight cards derived from the teacher's
 * groups, and the headline statistics (largest, smallest and latest group).
 * The clock is an input: `hour` is `getHours()` and `weekday` is `getDay()`.
 */
module Home {
  import opened Common

  /** A group as `GET /getClassrooms` lists it; `alumnos` is its student count. */
  datatype Classroom = Classroom(grado: JsValue, grupo: JsValue, alumnos: nat)

  datatype Period = Morning | Afternoon | Night

  function PeriodOf(hour: int): (p: Period)
    ensures p == Morning <==> hour < 12
    ensures p == Afternoon <==> 12 <= hour < 18
    ensures p == Night <==> hour >= 18
  {
    if hour < 12 then Morning else if hour < 18 then Afternoon else Night
  }

  /** `s.split(c)[0]`: everything before the first `c`. */
  function BeforeFirst(s: string, c: char): (r: string)
    ensures |r| <= |s| && r == s[..|r|] && c !in r
    ensures |r| < |s| ==> s[|r|] == c
  {
    if |s| == 0 || s[0] == c then ""
    else
      var rest := BeforeFirst(s[1..], c);
      assert s == [s[0]] + s[1..];
      [s[0]] + rest
  }

  /** The name in the greeting: the part of the stored email before `@`, or "Profesor". */
  function UserName(email: Option<string>): (n: string)
    ensures n != "" && '@' !in n
    ensures email.Some? && BeforeFirst(email.value, '@') != "" ==> n == BeforeFirst(email.value, '@')
    ensures email.None? || BeforeFirst(email.value, '@') == "" ==> n == "Profesor"
  {
    if email.Some? && BeforeFirst(email.value, '@') != "" then BeforeFirst(email.value, '@') else "Profesor"
  }

  /** An address with a non-empty local part greets by that local part. */
  lemma UserNameOfAddress(local: string, domain: string)
    requires local != "" && '@' !in local
    ensures UserName(Some(local + "@" + domain)) == local
  {
    var s := local + "@" + domain;
    var r := BeforeFirst(s, '@');
    assert s[..|local|] == local && s[|local|] == '@';
  }

  /** `getGreeting`. */
  function Greeting(hour: int, email: Option<string>): (g: string)
    ensures var name := UserName(email);
      g == match PeriodOf(hour)
        case Morning => "\U{00A1}Buenos d\U{00ED}as, " + name + "! \U{2600}\U{FE0F}"
        case Afternoon => "\U{00A1}Buenas tardes, " + name + "! \U{1F324}\U{FE0F}"
        case Night => "\U{00A1}Buenas noches, " + name + "! \U{1F319}"
  {
    var name := UserName(email);
    if hour < 12 then "\U{00A1}Buenos d\U{00ED}as, " + name + "! \U{2600}\U{FE0F}"
    else if hour < 18 then "\U{00A1}Buenas tardes, " + name + "! \U{1F324}\U{FE0F}"
    else "\U{00A1}Buenas noches, " + name + "! \U{1F319}"
  }

  function TotalStudents(data: seq<Classroom>): (t: nat)
    ensures |data| == 0 ==> t == 0
  {
    if |data| == 0 then 0 else data[0].alumnos + TotalStudents(data[1..])
  }

  lemma {:induction false} TotalZeroIffAllEmpty(data: seq<Classroom>)
    ensures TotalStudents(data) == 0 <==> forall i :: 0 <= i < |data| ==> data[i].alumnos == 0
  {
    if |data| > 0 {
      TotalZeroIffAllEmpty(data[1..]);
      assert forall i :: 1 <= i < |data| ==> data[i] == data[1..][i - 1];
    }
  }

  function MaxAlumnos(data: seq<Classroom>): (m: nat)
    requires |data| > 0
    ensures forall i :: 0 <= i < |data| ==> data[i].alumnos <= m
    ensures exists i :: 0 <= i < |data| && data[i].alumnos == m
  {
    if |data| == 1 then data[0].alumnos
    else
      var m := MaxAlumnos(data[1..]);
      assert forall i :: 1 <= i < |data| ==> data[i] == data[1..][i - 1];
      if data[0].alumnos >= m then data[0].alumnos else m
  }

  function MinAlumnos(data: seq<Classroom>): (m: nat)
    requires |data| > 0
    ensures forall i :: 0 <= i < |data| ==> m <= data[i].alumnos
    ensures exists i :: 0 <= i < |data| && data[i].alumnos == m
  {
    if |data| == 1 then data[0].alumnos
    else
      var m := MinAlumnos(data[1..]);
      assert forall i :: 1 <= i < |data| ==> data[i] == data[1..][i - 1];
      if data[0].alumnos <= m then data[0].alumnos else m
  }

  /** `Math.round(totalStudents / totalGroups)`, 0 without groups. */
  function AverageStudents(data: seq<Classroom>): (avg: int)
    ensures |data| == 0 ==> avg == 0
    ensures |data| > 0 ==> var exact := TotalStudents(data) as real / |data| as real;
      exact - 0.5 < avg as real <= exact + 0.5
  {
    if |data| > 0 then JsRound(TotalStudents(data) as real / |data| as real) else 0
  }

  datatype InsightKind = Status | Balance | Size | Weekday
  datatype InsightType = InfoCard | SuccessCard | WarningCard | TipCard
  datatype Insight = Insight(kind: InsightKind, cardType: InsightType)

  function StatusInsight(data: seq<Classroom>): (i: Insight)
    ensures i.kind == Status
    ensures i.cardType == InfoCard <==> TotalStudents(data) == 0
    ensures i.cardType != InfoCard ==> i.cardType == SuccessCard
  {
    if TotalStudents(data) == 0 then Insight(Status, InfoCard) else Insight(Status, SuccessCard)
  }

  function BalanceInsight(data: seq<Classroom>): (r: seq<Insight>)
    ensures |r| <= 1
    ensures |r| == 1 <==> |data| > 0 && MaxAlumnos(data) - MinAlumnos(data) > 10
    ensures |r| == 1 ==> r[0] == Insight(Balance, WarningCard)
  {
    if |data| > 0 && MaxAlumnos(data) - MinAlumnos(data) > 10 then [Insight(Balance, WarningCard)] else []
  }

  function SizeInsight(avg: int): (r: seq<Insight>)
    ensures |r| <= 1
    ensures |r| == 1 && r[0].cardType == TipCard <==> avg > 35
    ensures |r| == 1 && r[0].cardType == SuccessCard <==> 0 < avg <= 25
    ensures |r| == 0 <==> avg <= 0 || 26 <= avg <= 35
    ensures |r| == 1 ==> r[0].kind == Size
  {
    if avg > 35 then [Insight(Size, TipCard)]
    else if avg > 0 && avg <= 25 then [Insight(Size, SuccessCard)]
    else []
  }

  function WeekdayInsight(weekday: int): (r: seq<Insight>)
    ensures |r| == 1 <==> weekday == 1 || weekday == 5
    ensures |r| <= 1 && (|r| == 1 ==> r[0] == Insight(Weekday, InfoCard))
  {
    if weekday == 1 || weekday == 5 then [Insight(Weekday, InfoCard)] else []
  }

  /** `generateInsights`, in card order. */
  function GenerateInsights(data: seq<Classroom>, weekday: int): (r: seq<Insight>)
    ensures 1 <= |r| <= 4
    ensures r[0].kind == Status
    ensures forall k :: 1 <= k < |r| ==> r[k].kind != Status
  {
    [StatusInsight(data)] + BalanceInsight(data) + SizeInsight(AverageStudents(data)) + WeekdayInsight(weekday)
  }

  /** Exactly one status card, informational iff no group has students. */
  lemma ExactlyOneStatusInsight(data: seq<Classroom>, weekday: int)
    ensures var r := GenerateInsights(data, weekday);
      (forall k :: 0 <= k < |r| && r[k].kind == Status ==> k == 0)
      && (r[0].cardType == InfoCard <==> forall i :: 0 <= i < |data| ==> data[i].alumnos == 0)
  {
    TotalZeroIffAllEmpty(data);
  }

  /** Without groups the dashboard shows the welcome card, plus the weekday card on Mondays and Fridays. */
  lemma NoGroupsInsights(weekday: int)
    ensures GenerateInsights([], weekday) == [Insight(Status, InfoCard)] + WeekdayInsight(weekday)
  {
  }

  /** The headline numbers; the groups are `None` while there is no data. */
  datatype Stats = Stats(totalGroups: nat, totalStudents: nat, largest: Option<Classroom>, smallest: Option<Classroom>, recent: Option<Classroom>)

  /** Group `i` is what a stable descending sort puts first: the first group of maximal size. */
  predicate SortsFirst(data: seq<Classroom>, i: int) {
    && 0 <= i < |data|
    && (forall j :: 0 <= j < |data| ==> data[j].alumnos <= data[i].alumnos)
    && (forall j :: 0 <= j < i ==> data[j].alumnos < data[i].alumnos)
  }

  /** Group `i` is what a stable descending sort puts last: the last group of minimal size. */
  predicate SortsLast(data: seq<Classroom>, i: int) {
    && 0 <= i < |data|
    && (forall j :: 0 <= j < |data| ==> data[i].alumnos <= data[j].alumnos)
    && (forall j :: i < j < |data| ==> data[i].alumnos < data[j].alumnos)
  }

  /**
   * `calculateStats`. The loop finds, without sorting, the two groups the
   * sort would put at its ends.
   */
  method CalculateStats(data: seq<Classroom>) returns (st: Stats)
    ensures st.totalGroups == |data| && st.totalStudents == TotalStudents(data)
    ensures |data| == 0 ==> st.largest.None? && st.smallest.None? && st.recent.None?
    ensures |data| > 0 ==> st.recent == Some(data[|data| - 1])
    ensures |data| > 0 ==> exists i :: SortsFirst(data, i) && st.largest == Some(data[i])
    ensures |data| > 0 ==> exists i :: SortsLast(data, i) && st.smallest == Some(data[i])
    ensures st.largest.Some? ==> st.largest.value.alumnos == MaxAlumnos(data)
    ensures st.smallest.Some? ==> st.smallest.value.alumnos == MinAlumnos(data)
  {
    if |data| == 0 {
      return Stats(0, 0, None, None, None);
    }
    var big := 0;
    var small := 0;
    var total := data[0].alumnos;
    var k := 1;
    while k < |data|
      invariant 1 <= k <= |data|
      invariant 0 <= big < k && 0 <= small < k
      invariant forall j :: 0 <= j < k ==> data[j].alumnos <= data[big].alumnos
      invariant forall j :: 0 <= j < big ==> data[j].alumnos < data[big].alumnos
      invariant forall j :: 0 <= j < k ==> data[small].alumnos <= data[j].alumnos
      invariant forall j :: small < j < k ==> data[small].alumnos < data[j].alumnos
      invariant total + TotalStudents(data[k..]) == TotalStudents(data)
    {
      assert data[k..][1..] == data[k + 1..];
      if data[k].alumnos > data[big].alumnos {
        big := k;
      }
      if data[k].alumnos <= data[small].alumnos {
        small := k;
      }
      total := total + data[k].alumnos;
      k := k + 1;
    }
    assert data[|data|..] == [];
    assert SortsFirst(data, big) && SortsLast(data, small);
    st := Stats(|data|, total, Some(data[big]), Some(data[small]), Some(data[|data| - 1]));
  }
}

=== FILE: performance_chart.dfy ===
/**
 * The group performance chart: each student's valid grades are summed into a
 * total, the total is classified into a level, students are ranked with the
 * ungraded last, and the group statistics and level distribution are counted.
 */
module GroupPerformance {
  import opened Common
  import opened Grades

  /** A student row of `getAllStudentsGrades` (`grades` may be missing). */
  datatype GroupStudent = GroupStudent(nombre: string, apellidos: string, grades: Option<seq<Grade>>)

  /** `'struggling'` has a colour and an icon but is never assigned. */
  datatype Level = Excellent | Good | Average | Critical | Struggling | NoData

  /**
   * An analysed student. `averageGrade` keeps the source's field name: it
   * holds the total rounded to hundredths, or `None` without valid grades.
   */
  datatype Analyzed = Analyzed(
    student: GroupStudent,
    total: Option<real>,
    averageGrade: Option<real>,
    level: Level,
    totalTasks: nat,
    completedTasks: nat)

  /** `getPerformanceLevel` on a numeric total. */
  function LevelOf(total: real): (l: Level)
    ensures l == Excellent <==> total >= 100.0
    ensures l == Good <==> 80.0 <= total < 100.0
    ensures l == Average <==> 60.0 <= total < 80.0
    ensures l == Critical <==> total < 60.0
  {
    if total >= 100.0 then Excellent
    else if total >= 80.0 then Good
    else if total >= 60.0 then Average
    else Critical
  }

  /** The sum of the valid grades, `None` when there is none. */
  function TotalScore(gs: seq<Grade>): (t: Option<real>)
    ensures t.None? <==> NoneValid(gs)
    ensures t.Some? ==> t.value == Sum(ValidValues(gs))
  {
    var vs := ValidValues(gs);
    if |vs| > 0 then Some(Sum(vs)) else None
  }

  /** One student's entry of `analyzeStudentPerformance`, before ranking. */
  function Analyze(st: GroupStudent): (a: Analyzed)
    ensures a.student == st
    ensures a.totalTasks == |st.grades.GetOr([])|
    ensures a.completedTasks == |ValidValues(st.grades.GetOr([]))| <= a.totalTasks
    ensures a.total == TotalScore(st.grades.GetOr([]))
    ensures a.level == NoData <==> a.total.None?
    ensures a.level != Struggling
    ensures a.total.Some? ==> a.level == LevelOf(a.total.value)
    ensures a.averageGrade.None? <==> a.total.None?
    ensures a.total.Some? ==> a.total.value - 0.005 < a.averageGrade.value <= a.total.value + 0.005
    ensures a.total.Some? ==> a.averageGrade == Some(RoundHundredths(a.total.value))
  {
    var gs := st.grades.GetOr([]);
    var total := TotalScore(gs);
    Analyzed(
      st,
      total,
      if total.Some? then Some(RoundHundredths(total.value)) else None,
      if total.Some? then LevelOf(total.value) else NoData,
      |gs|,
      |ValidValues(gs)|)
  }

  /** The sort comparator as an order: graded before ungraded, higher first. */
  predicate Precedes(a: Option<real>, b: Option<real>) {
    match (a, b)
    case (_, None) => true
    case (None, Some(_)) => false
    case (Some(x), Some(y)) => x >= y
  }

  predicate Ranked(s: seq<Analyzed>) {
    forall i, j :: 0 <= i < j < |s| ==> Precedes(s[i].averageGrade, s[j].averageGrade)
  }

  /** Every entry of `s` comes after a student with grade `p`. */
  predicate PrecedesAll(p: Option<real>, s: seq<Analyzed>) {
    forall j :: 0 <= j < |s| ==> Precedes(p, s[j].averageGrade)
  }

  /** The head of a ranked list precedes everything after it. */
  lemma PrecedesAllTail(s: seq<Analyzed>)
    requires Ranked(s) && |s| > 0
    ensures PrecedesAll(s[0].averageGrade, s[1..])
  {
    forall j | 0 <= j < |s[1..]|
      ensures Precedes(s[0].averageGrade, s[1..][j].averageGrade)
    {
      assert s[1..][j] == s[j + 1];
    }
  }

  /** Preceding every entry depends only on the entries, not on their order. */
  lemma PrecedesAllPerm(p: Option<real>, a: seq<Analyzed>, b: seq<Analyzed>)
    requires PrecedesAll(p, a) && multiset(a) == multiset(b)
    ensures PrecedesAll(p, b)
  {
    forall j | 0 <= j < |b|
      ensures Precedes(p, b[j].averageGrade)
    {
      assert b[j] in multiset(a);
      var k :| 0 <= k < |a| && a[k] == b[j];
    }
  }

  /** Place `x` before the first entry it precedes; since a tie counts as preceding, `x` goes ahead of the entries it ties with. */
  function Insert(x: Analyzed, s: seq<Analyzed>): (r: seq<Analyzed>)
    requires Ranked(s)
    ensures Ranked(r)
    ensures multiset(r) == multiset(s) + multiset{x}
    ensures |r| == |s| + 1
  {
    if |s| == 0 then [x]
    else if Precedes(x.averageGrade, s[0].averageGrade) then
      assert forall j :: 0 <= j < |s| ==> Precedes(s[0].averageGrade, s[j].averageGrade);
      [x] + s
    else
      var rest := Insert(x, s[1..]);
      PrecedesAllTail(s);
      assert Precedes(s[0].averageGrade, x.averageGrade);
      assert PrecedesAll(s[0].averageGrade, s[1..] + [x]);
      PrecedesAllPerm(s[0].averageGrade, s[1..] + [x], rest);
      assert s == [s[0]] + s[1..];
      [s[0]] + rest
  }

  /** The `.sort` of `analyzeStudentPerformance`, as an insertion sort: a ranked permutation of its input. */
  function Rank(s: seq<Analyzed>): (r: seq<Analyzed>)
    ensures Ranked(r)
    ensures multiset(r) == multiset(s)
    ensures |r| == |s|
  {
    if |s| == 0 then []
    else
      assert s == [s[0]] + s[1..];
      Insert(s[0], Rank(s[1..]))
  }

  /** `analyzeStudentPerformance`: every student analysed once, then ranked. */
  function AnalyzeAll(students: seq<GroupStudent>): (r: seq<Analyzed>)
    ensures |r| == |students|
    ensures multiset(r) == multiset(seq(|students|, i requires 0 <= i < |students| => Analyze(students[i])))
    ensures Ranked(r)
  {
    Rank(seq(|students|, i requires 0 <= i < |students| => Analyze(students[i])))
  }

  /** In a ranking, students without data come last and graded ones by descending total. */
  lemma RankingOrder(r: seq<Analyzed>, i: int, j: int)
    requires Ranked(r) && 0 <= i < j < |r|
    ensures r[i].averageGrade.None? ==> r[j].averageGrade.None?
    ensures r[i].averageGrade.Some? && r[j].averageGrade.Some? ==> r[i].averageGrade.value >= r[j].averageGrade.value
  {
    assert Precedes(r[i].averageGrade, r[j].averageGrade);
  }

  /** No analysed student is ever classified `'struggling'`. */
  lemma {:induction false} AnalyzedNeverStruggling(students: seq<GroupStudent>, k: int)
    requires 0 <= k < |students|
    ensures AnalyzeAll(students)[k].level != Struggling
  {
    var pre := seq(|students|, i requires 0 <= i < |students| => Analyze(students[i]));
    var r := AnalyzeAll(students);
    assert r[k] in multiset(pre);
    var i :| 0 <= i < |pre| && pre[i] == r[k];
  }

  /** `data.filter(s => s.performanceLevel === l).length`. */
  function CountLevel(data: seq<Analyzed>, l: Level): (n: nat)
    ensures n <= |data|
    ensures |data| == 1 ==> (n == 1 <==> data[0].level == l)
  {
    if |data| == 0 then 0
    else (if data[0].level == l then 1 else 0) + CountLevel(data[1..], l)
  }

  /** Counting distributes over concatenation: each entry is counted once, under its own level. */
  lemma {:induction false} CountLevelAppend(a: seq<Analyzed>, b: seq<Analyzed>, l: Level)
    ensures CountLevel(a + b, l) == CountLevel(a, l) + CountLevel(b, l)
  {
    if |a| == 0 {
      assert a + b == b;
    } else {
      assert (a + b)[1..] == a[1..] + b;
      CountLevelAppend(a[1..], b, l);
    }
  }

  /** The students with a total, in order. */
  function Graded(data: seq<Analyzed>): (g: seq<real>)
    ensures |g| <= |data|
    ensures forall v :: v in g ==> exists i :: 0 <= i < |data| && data[i].averageGrade == Some(v)
    ensures forall i :: 0 <= i < |data| && data[i].averageGrade.Some? ==> data[i].averageGrade.value in g
    ensures |data| == 1 ==> g == (if data[0].averageGrade.Some? then [data[0].averageGrade.value] else [])
  {
    if |data| == 0 then []
    else
      var rest := Graded(data[1..]);
      assert forall v :: v in rest ==> exists i :: 1 <= i < |data| && data[i].averageGrade == Some(v) by {
        forall v | v in rest
          ensures exists i :: 1 <= i < |data| && data[i].averageGrade == Some(v)
        {
          var k :| 0 <= k < |data[1..]| && data[1..][k].averageGrade == Some(v);
          assert data[k + 1].averageGrade == Some(v);
        }
      }
      if data[0].averageGrade.Some? then [data[0].averageGrade.value] + rest else rest
  }

  /** Collecting the totals distributes over concatenation, so they keep the students' order. */
  lemma {:induction false} GradedAppend(a: seq<Analyzed>, b: seq<Analyzed>)
    ensures Graded(a + b) == Graded(a) + Graded(b)
  {
    if |a| == 0 {
      assert a + b == b;
    } else {
      assert (a + b)[1..] == a[1..] + b;
      GradedAppend(a[1..], b);
    }
  }

  datatype Stats = Stats(totalStudents: nat, strugglingStudents: nat, goodStudents: nat, averageGrade: real)

  /** `calculateStats` of the group chart. */
  function CalculateStats(data: seq<Analyzed>): (st: Stats)
    ensures st.totalStudents == |data|
    ensures st.strugglingStudents == CountLevel(data, Critical)
    ensures st.goodStudents == CountLevel(data, Good) + CountLevel(data, Excellent)
    ensures |Graded(data)| == 0 ==> st.averageGrade == 0.0
    ensures |Graded(data)| > 0 ==> st.averageGrade == RoundHundredths(Sum(Graded(data)) / |Graded(data)| as real)
  {
    var graded := Graded(data);
    var avg := if |graded| > 0 then Sum(graded) / |graded| as real else 0.0;
    Stats(|data|, CountLevel(data, Critical), CountLevel(data, Good) + CountLevel(data, Excellent),
          RoundHundredths(avg))
  }

  /** The group average is a mean of the graded totals: it lies within their range (up to rounding). */
  lemma StatsAverageInRange(data: seq<Analyzed>, lo: real, hi: real)
    requires |Graded(data)| > 0
    requires forall i :: 0 <= i < |data| && data[i].averageGrade.Some? ==> lo <= data[i].averageGrade.value <= hi
    ensures lo - 0.005 < CalculateStats(data).averageGrade <= hi + 0.005
  {
    var g := Graded(data);
    forall k | 0 <= k < |g|
      ensures lo <= g[k] <= hi
    {
      assert g[k] in g;
    }
    MeanOfBounded(g, lo, hi);
    assert CalculateStats(data).averageGrade == RoundHundredths(Sum(g) / |g| as real);
  }

  /** The mean of values within a range lies within it. */
  lemma MeanOfBounded(xs: seq<real>, lo: real, hi: real)
    requires |xs| > 0
    requires forall k :: 0 <= k < |xs| ==> lo <= xs[k] <= hi
    ensures lo <= Sum(xs) / |xs| as real <= hi
  {
    SumBounds(xs, lo, hi);
    MeanBounds(Sum(xs), |xs| as real, lo, hi);
  }

  lemma MeanBounds(total: real, n: real, lo: real, hi: real)
    requires n > 0.0 && n * lo <= total <= n * hi
    ensures lo <= total / n <= hi
  {
    var m := total / n;
    assert m * n == total;
  }

  /** The doughnut chart's five counts (`performanceCounts`). */
  datatype Distribution = Distribution(excellent: nat, good: nat, average: nat, critical: nat, noData: nat)

  function PerformanceCounts(data: seq<Analyzed>): (d: Distribution)
    ensures d.excellent == CountLevel(data, Excellent) && d.good == CountLevel(data, Good)
    ensures d.average == CountLevel(data, Average) && d.critical == CountLevel(data, Critical)
    ensures d.noData == CountLevel(data, NoData)
    ensures d.excellent + d.good + d.average + d.critical + d.noData + CountLevel(data, Struggling) == |data|
  {
    CountsCoverAll(data);
    Distribution(CountLevel(data, Excellent), CountLevel(data, Good), CountLevel(data, Average),
                 CountLevel(data, Critical), CountLevel(data, NoData))
  }

  /** One more student raises exactly the count of its own level and leaves the other four alone. */
  lemma CountsAddOne(data: seq<Analyzed>, x: Analyzed)
    ensures var d := PerformanceCounts(data); var e := PerformanceCounts(data + [x]);
      && e.excellent == d.excellent + (if x.level == Excellent then 1 else 0)
      && e.good == d.good + (if x.level == Good then 1 else 0)
      && e.average == d.average + (if x.level == Average then 1 else 0)
      && e.critical == d.critical + (if x.level == Critical then 1 else 0)
      && e.noData == d.noData + (if x.level == NoData then 1 else 0)
  {
    forall l: Level
      ensures CountLevel(data + [x], l) == CountLevel(data, l) + (if x.level == l then 1 else 0)
    {
      CountLevelAppend(data, [x], l);
    }
  }

  lemma {:induction false} CountsCoverAll(data: seq<Analyzed>)
    ensures CountLevel(data, Excellent) + CountLevel(data, Good) + CountLevel(data, Average)
          + CountLevel(data, Critical) + CountLevel(data, NoData) + CountLevel(data, Struggling) == |data|
  {
    if |data| > 0 {
      CountsCoverAll(data[1..]);
    }
  }

  lemma {:induction false} NoStrugglingCount(data: seq<Analyzed>)
    requires forall k :: 0 <= k < |data| ==> data[k].level != Struggling
    ensures CountLevel(data, Struggling) == 0
  {
    if |data| > 0 {
      NoStrugglingCount(data[1..]);
    }
  }

  /** Over the analysed group, the five distribution counts add up to the number of students. */
  lemma DistributionCoversGroup(students: seq<GroupStudent>)
    ensures var d := PerformanceCounts(AnalyzeAll(students));
      d.excellent + d.good + d.average + d.critical + d.noData == |students|
  {
    var r := AnalyzeAll(students);
    forall k | 0 <= k < |r|
      ensures r[k].level != Struggling
    {
      AnalyzedNeverStruggling(students, k);
    }
    NoStrugglingCount(r);
  }
}

=== FILE: scanner.dfy ===
/**
 * The QR attendance scanner page. A scanned text is read either as an
 * attendance link (`http…/attendance/<id>/<name>/s/<grade>/<group>/<area>[/<email>]`)
 * or as a JSON student object; either way the page shows the decoded student,
 * looks the id up, and registers attendance. A text that fits neither form is
 * shown raw, truncated, and nothing is sent.
 *
 * The browser's `new URL(text).pathname`, `JSON.parse(text)` and
 * `decodeURIComponent` are inputs: `None` stands for a call that throws.
 */
module Scanner {
  import opened Common
  import opened Attendance

  predicate StartsWith(s: string, prefix: string) {
    |prefix| <= |s| && s[..|prefix|] == prefix
  }

  predicate Contains(s: string, t: string) {
    exists i :: 0 <= i <= |s| && StartsWith(s[i..], t)
  }

  /** `s.split(c)`: the pieces between separators, empty ones included. */
  function Split(s: string, c: char): (parts: seq<string>)
    ensures |parts| >= 1
    ensures forall i :: 0 <= i < |parts| ==> c !in parts[i]
  {
    if |s| == 0 then [""]
    else
      var rest := Split(s[1..], c);
      if s[0] == c then [""] + rest
      else [[s[0]] + rest[0]] + rest[1..]
  }

  /** `parts.join(c)`. */
  function Join(parts: seq<string>, c: char): string
    requires |parts| >= 1
  {
    if |parts| == 1 then parts[0] else parts[0] + [c] + Join(parts[1..], c)
  }

  /** Splitting and joining back gives the original string. */
  lemma {:induction false} SplitJoin(s: string, c: char)
    ensures Join(Split(s, c), c) == s
  {
    if |s| > 0 {
      var rest := Split(s[1..], c);
      SplitJoin(s[1..], c);
      if s[0] == c {
        assert ([""] + rest)[1..] == rest;
      } else if |rest| > 1 {
        var parts := [[s[0]] + rest[0]] + rest[1..];
        assert parts[1..] == rest[1..];
        assert s == [s[0]] + s[1..];
      } else {
        assert s == [s[0]] + s[1..];
      }
    }
  }

  lemma {:induction false} SplitNoSeparator(a: string, c: char)
    requires c !in a
    ensures Split(a, c) == [a]
  {
    if |a| > 0 {
      SplitNoSeparator(a[1..], c);
      assert a == [a[0]] + a[1..];
    }
  }

  lemma {:induction false} SplitAtFirst(a: string, b: string, c: char)
    requires c !in a
    ensures Split(a + [c] + b, c) == [a] + Split(b, c)
  {
    var s := a + [c] + b;
    if |a| == 0 {
      assert s[1..] == b;
    } else {
      assert s[1..] == a[1..] + [c] + b;
      SplitAtFirst(a[1..], b, c);
      assert a == [a[0]] + a[1..];
    }
  }

  /** Joining separator-free pieces and splitting again gives the pieces back. */
  lemma {:induction false} JoinSplit(parts: seq<string>, c: char)
    requires |parts| >= 1
    requires forall i :: 0 <= i < |parts| ==> c !in parts[i]
    ensures Split(Join(parts, c), c) == parts
  {
    if |parts| == 1 {
      SplitNoSeparator(parts[0], c);
    } else {
      JoinSplit(parts[1..], c);
      SplitAtFirst(parts[0], Join(parts[1..], c), c);
      assert parts == [parts[0]] + parts[1..];
    }
  }

  /** `.filter(part => part)`: the non-empty pieces, in order. */
  function Segments(parts: seq<string>): (r: seq<string>)
    ensures forall i :: 0 <= i < |r| ==> r[i] != ""
    ensures forall x :: x in r <==> x in parts && x != ""
    ensures (forall i :: 0 <= i < |parts| ==> parts[i] != "") ==> r == parts
    ensures |parts| == 1 ==> r == if parts[0] == "" then [] else parts
  {
    if |parts| == 0 then []
    else
      var rest := Segments(parts[1..]);
      assert forall x :: x in parts <==> x == parts[0] || x in parts[1..];
      assert parts == [parts[0]] + parts[1..];
      if parts[0] == "" then rest else [parts[0]] + rest
  }

  /** Filtering distributes over concatenation: the kept pieces keep their order and their repeats. */
  lemma {:induction false} SegmentsAppend(a: seq<string>, b: seq<string>)
    ensures Segments(a + b) == Segments(a) + Segments(b)
  {
    if |a| == 0 {
      assert a + b == b;
    } else {
      assert (a + b)[1..] == a[1..] + b;
      SegmentsAppend(a[1..], b);
    }
  }

  /** `findIndex(part => part === w)`: the first position of `w`, or -1. */
  function FindIndex(parts: seq<string>, w: string): (i: int)
    ensures i == -1 <==> w !in parts
    ensures i >= 0 ==> i < |parts| && parts[i] == w && w !in parts[..i]
  {
    if |parts| == 0 then -1
    else if parts[0] == w then 0
    else
      var j := FindIndex(parts[1..], w);
      assert j >= 0 ==> parts[..j + 1] == [parts[0]] + parts[1..][..j];
      if j >= 0 then j + 1 else -1
  }

  /** The test that picks the link reading over the JSON reading. */
  predicate IsAttendanceLink(text: string) {
    StartsWith(text, "http") && Contains(text, "/attendance/")
  }

  /** A decoded scan: the profile shown and posted, and the raw `studentId` looked up. */
  datatype Decoded = Decoded(profile: StudentProfile, studentId: JsValue)

  /**
   * The link reading of `pathParts`, the non-empty pieces of the pathname:
   * `None` when "attendance" is missing, fewer than six pieces follow it, or a
   * piece does not decode. The piece between the name and the grade is never
   * read.
   */
  function ReadPathParts(segs: seq<string>, decode: string -> Option<string>): (d: Option<Decoded>)
    requires forall i :: 0 <= i < |segs| ==> segs[i] != ""
    ensures var idx := FindIndex(segs, "attendance");
      && (d.Some? ==> idx >= 0 && |segs| >= idx + 7)
      && (d.Some? ==> d.value.studentId == Str(segs[idx + 1]) && Truthy(d.value.studentId))
      && (idx >= 0 && |segs| >= idx + 7 ==>
            (d.Some? <==> && decode(segs[idx + 1]).Some? && decode(segs[idx + 2]).Some?
                          && decode(segs[idx + 4]).Some? && decode(segs[idx + 5]).Some?
                          && decode(segs[idx + 6]).Some?))
      && (d.Some? ==> d.value.profile == StudentProfile(
            Str(decode(segs[idx + 1]).value), Str(decode(segs[idx + 2]).value), Str(""),
            Str(decode(segs[idx + 4]).value), Str(decode(segs[idx + 5]).value), Str(decode(segs[idx + 6]).value)))
  {
    var idx := FindIndex(segs, "attendance");
    if idx >= 0 && |segs| >= idx + 7 then
      var id := decode(segs[idx + 1]);
      var name := decode(segs[idx + 2]);
      var grade := decode(segs[idx + 4]);
      var group := decode(segs[idx + 5]);
      var area := decode(segs[idx + 6]);
      if id.Some? && name.Some? && grade.Some? && group.Some? && area.Some? then
        Some(Decoded(
          StudentProfile(Str(id.value), Str(name.value), Str(""), Str(grade.value), Str(group.value), Str(area.value)),
          Str(segs[idx + 1])))
      else None
    else None
  }

  /** The link reading of a pathname: `split('/')`, drop the empty pieces, read them. */
  function DecodeLink(path: string, decode: string -> Option<string>): Option<Decoded> {
    ReadPathParts(Segments(Split(path, '/')), decode)
  }

  /**
   * A student's attendance link as a pathname. The app prints `"s"` as
   * `mark`; the reader never looks at that segment.
   */
  function LinkPath(pre: seq<string>, id: string, name: string, mark: string, grade: string, group: string, area: string, post: seq<string>): string
  {
    "/" + Join(pre + ["attendance", id, name, mark, grade, group, area] + post, '/')
  }

  predicate Segment(x: string) {
    x != "" && '/' !in x
  }

  /**
   * Reading a link the app printed gives back the decoded fields, whatever
   * path prefix the deployment adds, whatever segment sits between the name
   * and the grade, and whether the teacher's email follows.
   */
  lemma LinkRoundTrip(pre: seq<string>, id: string, name: string, mark: string, grade: string, group: string, area: string,
                      post: seq<string>, decode: string -> Option<string>)
    requires forall i :: 0 <= i < |pre| ==> Segment(pre[i]) && pre[i] != "attendance"
    requires forall i :: 0 <= i < |post| ==> Segment(post[i])
    requires Segment(id) && Segment(name) && Segment(mark) && Segment(grade) && Segment(group) && Segment(area)
    requires decode(id).Some? && decode(name).Some? && decode(grade).Some? && decode(group).Some? && decode(area).Some?
    ensures DecodeLink(LinkPath(pre, id, name, mark, grade, group, area, post), decode) ==
      Some(Decoded(StudentProfile(Str(decode(id).value), Str(decode(name).value), Str(""),
                                  Str(decode(grade).value), Str(decode(group).value), Str(decode(area).value)),
                   Str(id)))
  {
    var parts := pre + ["attendance", id, name, mark, grade, group, area] + post;
    assert forall i :: 0 <= i < |parts| ==> Segment(parts[i]) by {
      forall i | 0 <= i < |parts|
        ensures Segment(parts[i])
      {
        if i >= |pre| + 7 {
          assert parts[i] == post[i - |pre| - 7];
        } else if i < |pre| {
          assert parts[i] == pre[i];
        }
      }
    }
    JoinSplit(parts, '/');
    SplitAtFirst("", Join(parts, '/'), '/');
    assert LinkPath(pre, id, name, mark, grade, group, area, post) == "" + ['/'] + Join(parts, '/');
    var segs := Segments(Split(LinkPath(pre, id, name, mark, grade, group, area, post), '/'));
    assert segs == Segments([""] + parts) == parts;
    var idx := FindIndex(parts, "attendance");
    assert parts[|pre|] == "attendance";
    assert idx == |pre|;
  }

  /** A `JSON.parse` result: `null`, an object, or anything without named properties. */
  datatype JsonDoc = JsonNull | JsonObject(fields: map<string, JsValue>) | JsonOther

  /** `data[key]`: `None` when reading a property of `null` throws. */
  function Prop(doc: JsonDoc, key: string): (v: Option<JsValue>)
    ensures v.None? <==> doc.JsonNull?
    ensures doc.JsonObject? && key in doc.fields ==> v == Some(doc.fields[key])
    ensures doc.JsonObject? && key !in doc.fields ==> v == Some(Undefined)
  {
    match doc
    case JsonNull => None
    case JsonObject(fields) => Some(if key in fields then fields[key] else Undefined)
    case JsonOther => Some(Undefined)
  }

  /** A property of a document that is not `null`. */
  function Field(doc: JsonDoc, key: string): JsValue {
    Prop(doc, key).GetOr(Undefined)
  }

  /** `v` is `first || second || fallback`: the first truthy of the two keys, else the placeholder. */
  predicate ChosenFrom(v: JsValue, first: JsValue, second: JsValue, fallback: JsValue) {
    && (Truthy(first) ==> v == first)
    && (!Truthy(first) && Truthy(second) ==> v == second)
    && (!Truthy(first) && !Truthy(second) ==> v == fallback)
  }

  /** The JSON reading: each field from its English key, its Spanish key, or a placeholder. */
  function DecodeJson(doc: JsonDoc): (d: Option<Decoded>)
    ensures d.None? <==> doc.JsonNull?
    ensures d.Some? ==> d.value.studentId == Prop(doc, "id").value
    ensures d.Some? ==> Truthy(d.value.profile.nombre) && Truthy(d.value.profile.id) && Truthy(d.value.profile.grupo)
    ensures d.Some? ==> var p := d.value.profile;
      && (Truthy(Field(doc, "id")) ==> p.id == Field(doc, "id"))
      && (!Truthy(Field(doc, "id")) ==> p.id == Str("No disponible"))
      && ChosenFrom(p.nombre, Field(doc, "name"), Field(doc, "nombre"), Str("No disponible"))
      && ChosenFrom(p.apellidos, Field(doc, "lastName"), Field(doc, "apellidos"), Str(""))
      && ChosenFrom(p.grado, Field(doc, "grade"), Field(doc, "grado"), Str("No disponible"))
      && ChosenFrom(p.grupo, Field(doc, "group"), Field(doc, "grupo"), Str("No disponible"))
      && ChosenFrom(p.especialidad, Field(doc, "area"), Field(doc, "especialidad"), Str("No disponible"))
  {
    if doc.JsonNull? then None
    else
      Some(Decoded(
        StudentProfile(
          Or(Field(doc, "id"), Str("No disponible")),
          Or(Or(Field(doc, "name"), Field(doc, "nombre")), Str("No disponible")),
          Or(Or(Field(doc, "lastName"), Field(doc, "apellidos")), Str("")),
          Or(Or(Field(doc, "grade"), Field(doc, "grado")), Str("No disponible")),
          Or(Or(Field(doc, "group"), Field(doc, "grupo")), Str("No disponible")),
          Or(Or(Field(doc, "area"), Field(doc, "especialidad")), Str("No disponible"))),
        Field(doc, "id")))
  }

  /** A JSON object holding a profile under the Spanish keys reads back as that profile. */
  lemma JsonRoundTrip(p: StudentProfile)
    requires Truthy(p.id) && Truthy(p.nombre) && Truthy(p.apellidos)
    requires Truthy(p.grado) && Truthy(p.grupo) && Truthy(p.especialidad)
    ensures DecodeJson(JsonObject(map["id" := p.id, "nombre" := p.nombre, "apellidos" := p.apellidos,
      "grado" := p.grado, "grupo" := p.grupo, "especialidad" := p.especialidad])) == Some(Decoded(p, p.id))
  {
    var doc := JsonObject(map["id" := p.id, "nombre" := p.nombre, "apellidos" := p.apellidos,
      "grado" := p.grado, "grupo" := p.grupo, "especialidad" := p.especialidad]);
    assert Field(doc, "name") == Field(doc, "lastName") == Field(doc, "grade") == Undefined;
    assert Field(doc, "group") == Field(doc, "area") == Undefined;
  }

  /** A truthy English key wins over its Spanish twin, whatever the Spanish one holds. */
  lemma EnglishKeyWins(fields: map<string, JsValue>)
    requires "name" in fields && "lastName" in fields && "grade" in fields && "group" in fields && "area" in fields
    requires Truthy(fields["name"]) && Truthy(fields["lastName"]) && Truthy(fields["grade"])
    requires Truthy(fields["group"]) && Truthy(fields["area"])
    ensures var p := DecodeJson(JsonObject(fields)).value.profile;
      p.nombre == fields["name"] && p.apellidos == fields["lastName"] && p.grado == fields["grade"]
      && p.grupo == fields["group"] && p.especialidad == fields["area"]
  {
  }

  /** Any non-null JSON value is accepted, so an object without an id still registers attendance. */
  lemma JsonWithoutIdStillDecodes()
    ensures DecodeJson(JsonOther) ==
      Some(Decoded(StudentProfile(Str("No disponible"), Str("No disponible"), Str(""), Str("No disponible"),
                                  Str("No disponible"), Str("No disponible")), Undefined))
  {
  }

  /** The reading `onScanSuccess` settles on: `None` when it throws and falls back to the raw text. */
  function Decode(text: string, pathname: Option<string>, json: Option<JsonDoc>, decode: string -> Option<string>): (d: Option<Decoded>)
    ensures IsAttendanceLink(text) ==> d == (if pathname.Some? then DecodeLink(pathname.value, decode) else None)
    ensures !IsAttendanceLink(text) ==> d == (if json.Some? then DecodeJson(json.value) else None)
  {
    if IsAttendanceLink(text) then
      if pathname.Some? then DecodeLink(pathname.value, decode) else None
    else if json.Some? then DecodeJson(json.value)
    else None
  }

  /** The id shown for an unreadable scan: the first 20 characters, marked when cut. */
  function RawId(text: string): (r: string)
    ensures |text| <= 20 ==> r == text
    ensures |text| > 20 ==> |r| == 23 && r[..20] == text[..20] && r[20..] == "..."
  {
    if |text| > 20 then text[..20] + "..." else text
  }

  datatype Scanned = Scanned(profile: StudentProfile, estado: string)

  /** `scannedData`, `studentInfo` and `response` (`Null` before any reply). */
  datatype ScannerState = ScannerState(scanned: Option<Scanned>, studentInfo: Option<JsValue>, response: JsValue)

  const InitialScanner: ScannerState := ScannerState(None, None, Null)

  /** The requests one scan starts: the student lookup and the attendance post. */
  datatype ScanEffects = ScanEffects(lookup: Option<JsValue>, attendance: Option<AttendanceRequest>)

  const Processing: string := "Procesando..."
  const Unreadable: string := "Detectado (Formato inv\U{00E1}lido)"

  /** `onScanSuccess` after the camera is stopped. */
  function OnScanSuccess(st: ScannerState, text: string, pathname: Option<string>, json: Option<JsonDoc>,
                         decode: string -> Option<string>): (r: (ScannerState, ScanEffects))
    ensures var d := Decode(text, pathname, json, decode);
      && r.0.studentInfo == st.studentInfo
      && r.0.scanned.Some?
      && (d.Some? <==> r.1.attendance.Some?)
      && (d.Some? ==>
            && r.0.scanned.value == Scanned(d.value.profile, "Procesando...")
            && r.1.attendance.value == AttendanceBody(d.value.profile)
            && r.0.response == st.response
            && (r.1.lookup.Some? <==> Truthy(d.value.studentId))
            && (r.1.lookup.Some? ==> r.1.lookup.value == d.value.studentId))
      && (d.None? ==>
            && r.0.scanned.value.profile.id == Str(RawId(text))
            && r.0.scanned.value.estado == Unreadable
            && r.0.response == Bool(false)
            && r.1 == ScanEffects(None, None))
  {
    match Decode(text, pathname, json, decode)
    case Some(d) =>
      (st.(scanned := Some(Scanned(d.profile, Processing))),
       ScanEffects(if Truthy(d.studentId) then Some(d.studentId) else None, Some(AttendanceBody(d.profile))))
    case None =>
      var shown := StudentProfile(Str(RawId(text)), Str("Formato desconocido"), Undefined, Undefined, Str("Desconocido"), Undefined);
      (st.(scanned := Some(Scanned(shown, Unreadable)), response := Bool(false)), ScanEffects(None, None))
  }

  /** A link that reads always triggers the student lookup as well as the attendance post. */
  lemma LinkScanLooksUp(st: ScannerState, text: string, pathname: string, json: Option<JsonDoc>, decode: string -> Option<string>)
    requires IsAttendanceLink(text) && DecodeLink(pathname, decode).Some?
    ensures OnScanSuccess(st, text, Some(pathname), json, decode).1.lookup.Some?
    ensures OnScanSuccess(st, text, Some(pathname), json, decode).1.attendance.Some?
  {
  }

  const Present: string := "Presente"
  const AlreadyRegistered: string := "Asistencia ya registrada"
  const RegisterFailed: string := "Error al registrar"

  /** The `estado` an attendance reply sets. */
  function EstadoFor(reply: AttendanceReply): (e: string)
    ensures e == "Presente" <==> Confirmed(reply)
    ensures e == "Asistencia ya registrada" <==>
      !Confirmed(reply) && reply.AttendanceParsed? && StrictEq(reply.message, Str("attendance already registered"))
    ensures e == "Error al registrar" <==>
      !Confirmed(reply) && !(reply.AttendanceParsed? && StrictEq(reply.message, Str("attendance already registered")))
  {
    match reply
    case AttendanceFailed => RegisterFailed
    case AttendanceParsed(response, message) =>
      if StrictEq(response, Bool(true)) then Present
      else if StrictEq(message, Str("attendance already registered")) then AlreadyRegistered
      else RegisterFailed
  }

  const Nothing: StudentProfile := StudentProfile(Undefined, Undefined, Undefined, Undefined, Undefined, Undefined)

  /** `registerAttendance`'s reply handler: `response` is copied, `estado` is merged into what is shown. */
  function OnAttendanceReply(st: ScannerState, reply: AttendanceReply): (r: ScannerState)
    ensures r.studentInfo == st.studentInfo
    ensures r.scanned.Some? && r.scanned.value.estado == EstadoFor(reply)
    ensures st.scanned.Some? ==> r.scanned.value.profile == st.scanned.value.profile
    ensures r.response == if reply.AttendanceParsed? then reply.response else Bool(false)
  {
    var prev := if st.scanned.Some? then st.scanned.value.profile else Nothing;
    st.(scanned := Some(Scanned(prev, EstadoFor(reply))),
        response := if reply.AttendanceParsed? then reply.response else Bool(false))
  }

  /** The result view shows success exactly for a confirmed reply. */
  lemma SuccessShownIffConfirmed(st: ScannerState, reply: AttendanceReply)
    ensures StrictEq(OnAttendanceReply(st, reply).response, Bool(true)) <==> Confirmed(reply)
  {
  }

  /**
   * Reply of `GET /getStudent/<id>`: a parsed array, a parsed string, any
   * other parsed value (which has no `length`), or a failure.
   */
  datatype LookupReply = LookupRows(rows: seq<JsValue>) | LookupText(text: string) | LookupOther | LookupFailed

  /** `data && data.length > 0`: the reply has a first element to show. */
  predicate HasFirst(reply: LookupReply) {
    (reply.LookupRows? && |reply.rows| > 0) || (reply.LookupText? && |reply.text| > 0)
  }

  /** `getStudent`'s reply handler: the card shows `data[0]` when the reply has one, else stays. */
  function OnLookupReply(st: ScannerState, reply: LookupReply): (r: ScannerState)
    ensures r.studentInfo != st.studentInfo ==> HasFirst(reply)
    ensures reply.LookupRows? && |reply.rows| > 0 ==> r.studentInfo == Some(reply.rows[0])
    ensures reply.LookupText? && |reply.text| > 0 ==> r.studentInfo == Some(Str([reply.text[0]]))
    ensures !HasFirst(reply) ==> r == st
    ensures r.scanned == st.scanned && r.response == st.response
  {
    match reply
    case LookupRows(rows) => if |rows| > 0 then st.(studentInfo := Some(rows[0])) else st
    case LookupText(text) => if |text| > 0 then st.(studentInfo := Some(Str([text[0]]))) else st
    case _ => st
  }

  /** The start button is disabled while a scan result is shown. */
  predicate StartEnabled(st: ScannerState) {
    st.scanned.None?
  }

  /** `resetScanner`. */
  function ResetScanner(st: ScannerState): (r: ScannerState)
    ensures StartEnabled(r) && r.studentInfo.None? && r.response == Null
  {
    InitialScanner
  }

  /** A scan always disables the start button until the result is reset. */
  lemma ScanThenReset(st: ScannerState, text: string, pathname: Option<string>, json: Option<JsonDoc>,
                      decode: string -> Option<string>, reply: AttendanceReply)
    ensures !StartEnabled(OnScanSuccess(st, text, pathname, json, decode).0)
    ensures !StartEnabled(OnAttendanceReply(OnScanSuccess(st, text, pathname, json, decode).0, reply))
    ensures ResetScanner(OnScanSuccess(st, text, pathname, json, decode).0) == InitialScanner
  {
  }
}

=== FILE: send_message_modal.dfy ===
/**
 * The modal that sends a message to a student: the send handler, the close
 * handler, the send button's enabling condition and the status line.
 */
module SendMessage {
  import opened Common

  /** `status`: `null`, `'success'` or `'error'`. */
  datatype Status = NoStatus | SentOk | SendError

  /** The modal's own state; `open` is the parent's `isOpen`, which `onClose` clears. */
  datatype Modal = Modal(message: string, sending: bool, status: Status, open: bool)

  /** How `POST /sendMessage` ended: it threw, or answered with `response.ok` and `result.success`. */
  datatype SendReply = SendThrew | SendReplied(ok: bool, success: JsValue)

  /** The body of `POST /sendMessage`. */
  datatype MessageRequest = MessageRequest(studentId: JsValue, message: string)

  /**
   * What `handleSendMessage` did: the request it posted, the modal after the
   * reply, and the text handed to `onMessageSent` when that callback was given
   * and called.
   */
  datatype SendOutcome = SendOutcome(request: Option<MessageRequest>, modal: Modal, notified: Option<string>)

  /**
   * `handleSendMessage`. A message that trims to nothing only raises the
   * error status. Otherwise the trimmed text is posted; an ok reply whose
   * `success` is truthy clears the message and reports the trimmed text to the
   * callback, and every other outcome keeps the message and shows the error.
   */
  function HandleSend(m: Modal, studentId: JsValue, hasCallback: bool, reply: SendReply): (o: SendOutcome)
    ensures IsBlank(m.message) ==> o.request.None? && o.modal == m.(status := SendError) && o.notified.None?
    ensures !IsBlank(m.message) ==> o.request == Some(MessageRequest(studentId, Trim(m.message))) && !o.modal.sending
    ensures o.modal.open == m.open
    ensures var delivered := !IsBlank(m.message) && reply.SendReplied? && reply.ok && Truthy(reply.success);
      && (delivered ==> o.modal.status == SentOk && o.modal.message == "")
      && (delivered && hasCallback ==> o.notified == Some(Trim(m.message)))
      && (!delivered ==> o.modal.message == m.message && o.modal.status == SendError && o.notified.None?)
      && (!hasCallback ==> o.notified.None?)
  {
    TrimEmptyIffBlank(m.message);
    var text := Trim(m.message);
    if text == "" then SendOutcome(None, m.(status := SendError), None)
    else
      var request := MessageRequest(studentId, text);
      var pending := m.(sending := true, status := NoStatus);
      var settled :=
        match reply
        case SendThrew => SendOutcome(Some(request), pending.(status := SendError), None)
        case SendReplied(ok, success) =>
          if ok && Truthy(success) then
            SendOutcome(Some(request), pending.(status := SentOk, message := ""), if hasCallback then Some(text) else None)
          else SendOutcome(Some(request), pending.(status := SendError), None);
      settled.(modal := settled.modal.(sending := false))
  }

  /** What `handleClose` did: the modal afterwards and whether `onClose` was called. */
  datatype CloseOutcome = CloseOutcome(modal: Modal, closed: bool)

  /** `handleClose`: ignored while a message is being sent; otherwise clears and closes. */
  function HandleClose(m: Modal): (o: CloseOutcome)
    ensures o.closed <==> !m.sending
    ensures m.sending ==> o.modal == m
    ensures !m.sending ==> o.modal == Modal("", false, NoStatus, false)
  {
    if m.sending then CloseOutcome(m, false) else CloseOutcome(m.(message := "", status := NoStatus, open := false), true)
  }

  /** The longest message the button accepts. */
  const MaxLength: nat := 500

  /** The send button is enabled: not sending, something besides spaces typed, at most 500 characters. */
  function SendEnabled(m: Modal): (b: bool)
    ensures b <==> !m.sending && !IsBlank(m.message) && |m.message| <= 500
  {
    TrimEmptyIffBlank(m.message);
    !m.sending && Trim(m.message) != "" && |m.message| <= MaxLength
  }

  /** Whatever the enabled button submits is posted. */
  lemma EnabledSends(m: Modal, studentId: JsValue, hasCallback: bool, reply: SendReply)
    requires SendEnabled(m)
    ensures HandleSend(m, studentId, hasCallback, reply).request.Some?
  {
  }

  /**
   * The length limit lives only in the button: the handler itself posts a
   * 501-character message the button would refuse.
   */
  lemma LengthLimitOnlyInButton(studentId: JsValue, reply: SendReply)
    ensures var m := Modal(seq(501, k => 'a'), false, NoStatus, true);
      !SendEnabled(m) && HandleSend(m, studentId, false, reply).request.Some?
  {
    var m := Modal(seq(501, k => 'a'), false, NoStatus, true);
    assert !IsJsSpace(m.message[0]);
  }

  /** The status line: `None` when nothing is shown. */
  function StatusText(m: Modal): (t: Option<string>)
    ensures t.None? <==> m.status == NoStatus
    ensures m.status == SentOk ==> t == Some("\U{00A1}Mensaje enviado correctamente!")
    ensures m.status == SendError && IsBlank(m.message) ==> t == Some("Por favor escribe un mensaje")
    ensures m.status == SendError && !IsBlank(m.message) ==> t == Some("Error al enviar el mensaje. Int\U{00E9}ntalo de nuevo.")
  {
    TrimEmptyIffBlank(m.message);
    match m.status
    case NoStatus => None
    case SentOk => Some("\U{00A1}Mensaje enviado correctamente!")
    case SendError =>
      if Trim(m.message) == "" then Some("Por favor escribe un mensaje")
      else Some("Error al enviar el mensaje. Int\U{00E9}ntalo de nuevo.")
  }

  /**
   * After a send the status line names the actual cause: the prompt for a
   * blank message, the failure text for a message that did not go through,
   * the confirmation for one that did.
   */
  lemma StatusTextAfterSend(m: Modal, studentId: JsValue, hasCallback: bool, reply: SendReply)
    ensures var o := HandleSend(m, studentId, hasCallback, reply);
      && (IsBlank(m.message) ==> StatusText(o.modal) == Some("Por favor escribe un mensaje"))
      && (!IsBlank(m.message) && o.modal.status == SendError ==>
            StatusText(o.modal) == Some("Error al enviar el mensaje. Int\U{00E9}ntalo de nuevo."))
      && (o.modal.status == SentOk ==> StatusText(o.modal) == Some("\U{00A1}Mensaje enviado correctamente!"))
  {
  }
}

=== FILE: student_info.dfy ===
/**
 * The student page: the task list as the grading table holds it, the two
 * per-row edits (typed value, points/percentage switch), the conversion of a
 * typed grade into the final rate that is sent, and the form checks in front
 * of the attendance and permission requests.
 */
module StudentInfo {
  import opened Common

  /** A task as `GET /getTasks/<studentId>` returns it. */
  datatype RawTask = RawTask(id: JsValue, name: JsValue, rate: JsValue, finalRate: JsValue)

  /** A row of the grading table. */
  datatype TaskRow = TaskRow(id: JsValue, name: JsValue, rate: JsValue, finalRate: JsValue, rateType: string, inputValue: string)

  const Points: string := "points"
  const Percentage: string := "percentage"

  /** `localStorage`'s `email` and `password`; `None` is a missing item. */
  datatype Credentials = Credentials(email: Option<string>, password: Option<string>)

  const NoCredentials: string := "No hay credenciales guardadas. Por favor inicie sesi\U{00F3}n."

  /** `fetchTasks`' first check: both items present and non-empty. */
  function CheckCredentials(c: Credentials): (r: Result<Credentials>)
    ensures r.Success? <==> c.email.Some? && c.email.value != "" && c.password.Some? && c.password.value != ""
    ensures r.Failure? ==> r.error == NoCredentials
    ensures r.Success? ==> r.value == c
  {
    if c.email.Some? && c.email.value != "" && c.password.Some? && c.password.value != "" then Success(c)
    else Failure(NoCredentials)
  }

  /** One table row: id falls back to the name, a falsy rate reads 10, points mode, nothing typed. */
  function FormatTask(t: RawTask): (r: TaskRow)
    ensures r.id == Or(t.id, t.name) && r.name == t.name && r.finalRate == t.finalRate
    ensures Truthy(r.rate) && (Truthy(t.rate) ==> r.rate == t.rate) && (!Truthy(t.rate) ==> r.rate == Num(10.0))
    ensures r.rateType == "points" && r.inputValue == ""
  {
    TaskRow(Or(t.id, t.name), t.name, Or(t.rate, Num(10.0)), t.finalRate, Points, "")
  }

  /** `fetchTasks`' formatting: `None` stands for a reply that is not an array. */
  function FormatTasks(data: Option<seq<RawTask>>): (r: seq<TaskRow>)
    ensures data.None? ==> r == []
    ensures data.Some? ==> |r| == |data.value| && forall i :: 0 <= i < |r| ==> r[i] == FormatTask(data.value[i])
  {
    if data.None? then []
    else seq(|data.value|, i requires 0 <= i < |data.value| => FormatTask(data.value[i]))
  }

  /** `handleValueChange`: the typed text of the rows whose id is `=== taskId`. */
  function HandleValueChange(rows: seq<TaskRow>, taskId: JsValue, value: string): (r: seq<TaskRow>)
    ensures |r| == |rows|
    ensures forall i :: 0 <= i < |r| && StrictEq(rows[i].id, taskId) ==> r[i] == rows[i].(inputValue := value)
    ensures forall i :: 0 <= i < |r| && !StrictEq(rows[i].id, taskId) ==> r[i] == rows[i]
  {
    seq(|rows|, i requires 0 <= i < |rows| => if StrictEq(rows[i].id, taskId) then rows[i].(inputValue := value) else rows[i])
  }

  /** The switch: percentage becomes points, anything else becomes percentage. */
  function Toggle(rateType: string): (r: string)
    ensures r == "points" <==> rateType == "percentage"
    ensures r != "points" ==> r == "percentage"
  {
    if rateType == Percentage then Points else Percentage
  }

  /** Switching twice restores exactly the two values the page itself sets. */
  lemma ToggleTwice(rateType: string)
    ensures Toggle(Toggle(rateType)) == rateType <==> rateType == "points" || rateType == "percentage"
  {
  }

  /** `toggleRateType` on the rows whose id is `=== taskId`. */
  function ToggleRateType(rows: seq<TaskRow>, taskId: JsValue): (r: seq<TaskRow>)
    ensures |r| == |rows|
    ensures forall i :: 0 <= i < |r| && StrictEq(rows[i].id, taskId) ==> r[i] == rows[i].(rateType := Toggle(rows[i].rateType))
    ensures forall i :: 0 <= i < |r| && !StrictEq(rows[i].id, taskId) ==> r[i] == rows[i]
  {
    seq(|rows|, i requires 0 <= i < |rows| =>
      if StrictEq(rows[i].id, taskId) then rows[i].(rateType := Toggle(rows[i].rateType)) else rows[i])
  }

  /** On a table the page built, switching a row twice gives the table back. */
  lemma ToggleRateTypeTwice(rows: seq<TaskRow>, taskId: JsValue)
    requires forall i :: 0 <= i < |rows| ==> rows[i].rateType == "points" || rows[i].rateType == "percentage"
    ensures ToggleRateType(ToggleRateType(rows, taskId), taskId) == rows
  {
    var once := ToggleRateType(rows, taskId);
    var twice := ToggleRateType(once, taskId);
    forall i | 0 <= i < |rows|
      ensures twice[i] == rows[i]
    {
      ToggleTwice(rows[i].rateType);
    }
  }

  /** Why a typed grade is refused; each reason has its own alert. */
  datatype GradeError = EmptyInput | PercentOutOfRange | PointsOutOfRange(rate: real)

  /** The outcome of `changeFinalRate`'s checks: the final rate to send, or the refusal. */
  datatype Grading = Graded(finalRate: real) | Refused(reason: GradeError)

  /**
   * `changeFinalRate`'s validation and conversion. `value` is
   * `Number(inputValue)` and `rate` the row's numeric rate.
   */
  function FinalRate(inputValue: string, value: real, rateType: string, rate: real): (r: Grading)
    ensures inputValue == "" ==> r == Refused(EmptyInput)
    ensures inputValue != "" && rateType == "percentage" ==>
      && (r.Graded? <==> 0.0 <= value <= 100.0)
      && (r.Graded? ==> r.finalRate == value * rate / 100.0)
      && (r.Refused? ==> r.reason == PercentOutOfRange)
    ensures inputValue != "" && rateType != "percentage" ==>
      && (r.Graded? <==> 0.0 <= value <= rate)
      && (r.Graded? ==> r.finalRate == value)
      && (r.Refused? ==> r.reason == PointsOutOfRange(rate))
  {
    if inputValue == "" then Refused(EmptyInput)
    else if rateType == Percentage then
      if value < 0.0 || value > 100.0 then Refused(PercentOutOfRange) else Graded(value * rate / 100.0)
    else if value < 0.0 || value > rate then Refused(PointsOutOfRange(rate))
    else Graded(value)
  }

  lemma ScaledBounds(v: real, rate: real)
    requires 0.0 <= v <= 100.0 && rate >= 0.0
    ensures 0.0 <= v * rate / 100.0 <= rate
  {
    assert v * rate <= 100.0 * rate;
  }

  /** Whatever the mode, an accepted grade lies between 0 and the task's rate. */
  lemma FinalRateInRange(inputValue: string, value: real, rateType: string, rate: real)
    requires rate >= 0.0
    requires FinalRate(inputValue, value, rateType, rate).Graded?
    ensures 0.0 <= FinalRate(inputValue, value, rateType, rate).finalRate <= rate
  {
    if rateType == Percentage {
      ScaledBounds(value, rate);
    }
  }

  /** A percentage and the points it stands for are sent as the same final rate. */
  lemma PercentageMatchesPoints(inputValue: string, value: real, rate: real, pointsInput: string)
    requires inputValue != "" && pointsInput != "" && rate >= 0.0 && 0.0 <= value <= 100.0
    ensures FinalRate(pointsInput, value * rate / 100.0, "points", rate) == FinalRate(inputValue, value, "percentage", rate)
  {
    ScaledBounds(value, rate);
  }

  /** The student fields the two forms post. */
  datatype StudentInfoData = StudentInfoData(nombre: JsValue, apellidos: JsValue, grado: JsValue, grupo: JsValue, especialidad: JsValue)

  datatype AttendanceRequest = AttendanceRequest(student: StudentInfoData, date: string, id: JsValue)
  datatype PermissionRequest = PermissionRequest(student: StudentInfoData, reason: string, date: string, id: JsValue)

  const MissingDate: string := "Por favor, seleccione una fecha"
  const MissingReason: string := "Por favor, ingrese una raz\U{00F3}n para el permiso"

  /** `createAttendance`: refused without a date. */
  function CreateAttendance(info: StudentInfoData, date: string, studentId: JsValue): (r: Result<AttendanceRequest>)
    ensures r.Failure? <==> date == ""
    ensures r.Failure? ==> r.error == MissingDate
    ensures r.Success? ==> r.value == AttendanceRequest(info, date, studentId)
  {
    if date == "" then Failure(MissingDate) else Success(AttendanceRequest(info, date, studentId))
  }

  /** `createPermission`: the date is checked first, then the reason. */
  function CreatePermission(info: StudentInfoData, date: string, reason: string, studentId: JsValue): (r: Result<PermissionRequest>)
    ensures date == "" ==> r == Failure(MissingDate)
    ensures date != "" && reason == "" ==> r == Failure(MissingReason)
    ensures r.Success? <==> date != "" && reason != ""
    ensures r.Success? ==> r.value == PermissionRequest(info, reason, date, studentId)
  {
    if date == "" then Failure(MissingDate)
    else if reason == "" then Failure(MissingReason)
    else Success(PermissionRequest(info, reason, date, studentId))
  }

  /** A permission the page accepts is also an attendance it would accept for the same day. */
  lemma PermissionImpliesAttendance(info: StudentInfoData, date: string, reason: string, studentId: JsValue)
    requires CreatePermission(info, date, reason, studentId).Success?
    ensures CreateAttendance(info, date, studentId).Success?
  {
  }
}

=== FILE: student_performance_chart.dfy ===
/**
 * The per-student performance modal: it picks the student's row out of the
 * group's grade list, totals the valid grades, labels the total, and draws
 * one bar and one percentage point per grade row.
 */
module StudentPerformance {
  import opened Common
  import opened Grades
  import GroupPerformance

  /** One element of the `getAllStudentsGrades` array; `grades` is `None` when falsy. */
  datatype StudentRow = StudentRow(studentId: JsValue, grades: Option<seq<Grade>>)

  /** How the grades request ended: it threw, answered not-ok, or answered with the parsed array. */
  datatype GradesFetch = FetchThrew | FetchNotOk | FetchOk(rows: seq<StudentRow>)

  /** `studentData`: `None` is `null`. */
  datatype StudentData = StudentData(grades: seq<Grade>, name: string)

  /** `Array.prototype.find` with `s.student_id === studentId`. */
  function FindStudent(rows: seq<StudentRow>, studentId: JsValue): (r: Option<StudentRow>)
    ensures r.Some? <==> exists i :: 0 <= i < |rows| && StrictEq(rows[i].studentId, studentId)
    ensures r.Some? ==> r.value in rows && StrictEq(r.value.studentId, studentId)
  {
    if |rows| == 0 then None
    else if StrictEq(rows[0].studentId, studentId) then Some(rows[0])
    else
      assert forall i :: 1 <= i < |rows| ==> rows[i] == rows[1..][i - 1];
      FindStudent(rows[1..], studentId)
  }

  /** `find` returns the first matching row. */
  lemma {:induction false} FindStudentFirst(rows: seq<StudentRow>, studentId: JsValue, i: int)
    requires 0 <= i < |rows| && StrictEq(rows[i].studentId, studentId)
    requires forall j :: 0 <= j < i ==> !StrictEq(rows[j].studentId, studentId)
    ensures FindStudent(rows, studentId) == Some(rows[i])
  {
    if i > 0 {
      FindStudentFirst(rows[1..], studentId, i - 1);
    }
  }

  /** `fetchStudentPerformance`: the student's grades, `[]` when missing, `null` when the request threw. */
  function FetchStudentPerformance(fetch: GradesFetch, studentId: JsValue, studentName: string): (d: Option<StudentData>)
    ensures d.None? <==> fetch.FetchThrew?
    ensures d.Some? ==> d.value.name == studentName
    ensures fetch.FetchNotOk? ==> d == Some(StudentData([], studentName))
    ensures fetch.FetchOk? ==>
      var row := FindStudent(fetch.rows, studentId);
      d.value.grades == if row.Some? && row.value.grades.Some? then row.value.grades.value else []
  {
    match fetch
    case FetchThrew => None
    case FetchNotOk => Some(StudentData([], studentName))
    case FetchOk(rows) =>
      var row := FindStudent(rows, studentId);
      Some(StudentData(if row.Some? && row.value.grades.Some? then row.value.grades.value else [], studentName))
  }

  /** The modal's `calculateStats` result; `averageGrade` holds the rounded total. */
  datatype Stats = Stats(averageGrade: real, totalTasks: nat, completedTasks: nat)

  function CalculateStats(data: Option<StudentData>): (st: Option<Stats>)
    ensures st.None? <==> data.None?
    ensures st.Some? ==>
      && st.value.totalTasks == |data.value.grades|
      && st.value.completedTasks == |ValidValues(data.value.grades)| <= st.value.totalTasks
      && (NoneValid(data.value.grades) ==> st.value.averageGrade == 0.0)
      && (!NoneValid(data.value.grades) ==>
            var t := Sum(ValidValues(data.value.grades));
            t - 0.005 < st.value.averageGrade <= t + 0.005 && st.value.averageGrade == RoundHundredths(t))
  {
    if data.None? then None
    else
      var vs := ValidValues(data.value.grades);
      var total := if |vs| > 0 then Sum(vs) else 0.0;
      JsRoundOfInt(0);
      Some(Stats(RoundHundredths(total), |data.value.grades|, |vs|))
  }

  /**
   * The modal and the group chart agree on a student with valid grades; where
   * the group chart has no total the modal shows 0.
   */
  lemma AgreesWithGroupChart(grades: seq<Grade>, name: string, nombre: string, apellidos: string)
    ensures var st := CalculateStats(Some(StudentData(grades, name))).value;
      var a := GroupPerformance.Analyze(GroupPerformance.GroupStudent(nombre, apellidos, Some(grades)));
      && (a.averageGrade.Some? ==> st.averageGrade == a.averageGrade.value)
      && (a.averageGrade.None? ==> st.averageGrade == 0.0)
      && st.totalTasks == a.totalTasks && st.completedTasks == a.completedTasks
  {
    JsRoundOfInt(0);
  }

  /** The two datasets of the bar chart, one entry per grade row. */
  datatype GradesChart = GradesChart(labels: seq<string>, finalGrades: seq<real>, taskRates: seq<real>)

  /** `prepareGradesChart`: `null` without rows; a missing name reads `'Tarea'` and a missing number 0. */
  function PrepareGradesChart(data: Option<StudentData>): (c: Option<GradesChart>)
    ensures c.None? <==> data.None? || |data.value.grades| == 0
    ensures c.Some? ==>
      var gs := data.value.grades;
      && |c.value.labels| == |gs| && |c.value.finalGrades| == |gs| && |c.value.taskRates| == |gs|
      && forall i :: 0 <= i < |gs| ==>
           && c.value.labels[i] == (if gs[i].taskName.Some? && gs[i].taskName.value != "" then gs[i].taskName.value else "Tarea")
           && c.value.finalGrades[i] == gs[i].finalGrade.GetOr(0.0)
           && c.value.taskRates[i] == gs[i].taskRate.GetOr(0.0)
  {
    if data.None? || |data.value.grades| == 0 then None
    else
      var gs := data.value.grades;
      Some(GradesChart(
        seq(|gs|, i requires 0 <= i < |gs| =>
          if gs[i].taskName.Some? && gs[i].taskName.value != "" then gs[i].taskName.value else "Tarea"),
        seq(|gs|, i requires 0 <= i < |gs| => gs[i].finalGrade.GetOr(0.0)),
        seq(|gs|, i requires 0 <= i < |gs| => gs[i].taskRate.GetOr(0.0))))
  }

  /** The bar chart's obtained points total what the stats card reports (before rounding). */
  lemma {:induction false} ChartTotalsMatchStats(gs: seq<Grade>)
    ensures Sum(seq(|gs|, i requires 0 <= i < |gs| => gs[i].finalGrade.GetOr(0.0))) == Sum(ValidValues(gs))
  {
    var bars := seq(|gs|, i requires 0 <= i < |gs| => gs[i].finalGrade.GetOr(0.0));
    if |gs| > 0 {
      ChartTotalsMatchStats(gs[1..]);
      assert bars[1..] == seq(|gs[1..]|, i requires 0 <= i < |gs[1..]| => gs[1..][i].finalGrade.GetOr(0.0));
    }
  }

  /** One point of the trend line: the grade as a rounded percentage of the task's rate, 0 without a rate. */
  function Percentage(finalGrade: real, taskRate: real): (p: int)
    ensures taskRate <= 0.0 ==> p == 0
    ensures taskRate > 0.0 && 0.0 <= finalGrade <= taskRate ==> 0 <= p <= 100
    ensures taskRate > 0.0 ==> var exact := finalGrade / taskRate * 100.0; exact - 0.5 < p as real <= exact + 0.5
  {
    if taskRate > 0.0 then
      var exact := finalGrade / taskRate * 100.0;
      FractionBounds(finalGrade, taskRate);
      JsRound(exact)
    else 0
  }

  lemma FractionBounds(part: real, whole: real)
    requires whole > 0.0
    ensures 0.0 <= part <= whole ==> 0.0 <= part / whole <= 1.0
  {
    if 0.0 <= part <= whole {
      GroupPerformance.MeanBounds(part, whole, 0.0, 1.0);
    }
  }

  /** The trend line of a chart, point by point. */
  function TrendLine(c: GradesChart): (ps: seq<int>)
    requires |c.finalGrades| == |c.labels| && |c.taskRates| == |c.labels|
    ensures |ps| == |c.labels|
    ensures forall i :: 0 <= i < |ps| ==> ps[i] == Percentage(c.finalGrades[i], c.taskRates[i])
  {
    seq(|c.labels|, i requires 0 <= i < |c.labels| => Percentage(c.finalGrades[i], c.taskRates[i]))
  }

  /** The "Estado Académico" label for the rounded total. */
  function StatusLabel(total: real): (l: string)
    ensures total <= 0.0 <==> l == "Sin evaluar"
  {
    if total >= 100.0 then "Excelente"
    else if total >= 80.0 then "Bien"
    else if total >= 60.0 then "Regular"
    else if total > 0.0 then "Insuficiente"
    else "Sin evaluar"
  }

  /** The line under the label. */
  function PassLabel(total: real): (l: string)
    ensures total <= 0.0 <==> l == "Pendiente"
  {
    if total >= 60.0 then "Aprobado \U{2713}"
    else if total > 0.0 then "Reprobado \U{2717}"
    else "Pendiente"
  }

  /** The label the group chart's level gives the same total. */
  function LevelLabel(l: GroupPerformance.Level): string {
    match l
    case Excellent => "Excelente"
    case Good => "Bien"
    case Average => "Regular"
    case _ => "Insuficiente"
  }

  /**
   * For a positive total the modal's label is the group chart's level; a
   * total of 0 or less reads "Sin evaluar" here but is critical there.
   */
  lemma StatusMatchesLevel(total: real)
    ensures total > 0.0 ==> StatusLabel(total) == LevelLabel(GroupPerformance.LevelOf(total))
    ensures total <= 0.0 ==> GroupPerformance.LevelOf(total) == GroupPerformance.Critical && StatusLabel(total) == "Sin evaluar"
  {
  }

  /** A total passes exactly when its level is at least average. */
  lemma PassMatchesStatus(total: real)
    ensures PassLabel(total) == "Aprobado \U{2713}" <==> StatusLabel(total) in {"Excelente", "Bien", "Regular"}
    ensures PassLabel(total) == "Reprobado \U{2717}" <==> StatusLabel(total) == "Insuficiente"
  {
  }
}
